=== FILE: README.md ===
# x-clone-api request rules and record transitions, in Dafny

This project models the core of x-clone-api, an Express and MongoDB backend for a Twitter-like service:

- **Request rules.** These are the `express-validator` schemas that guard the user and tweet routes: `registerValidator`, `loginValidator`, `accessTokenValidator`, `refreshTokenValidator`, `tweetsValidator`, `tweetIdValidator` and `audienceValidator`. Each rule is modelled with the first error it records per field.
- **`validate`.** This wrapper turns the field errors into one of three outcomes: forward an `ErrorWithStatus`, answer 422, or let the request through.
- **`defaultErrorHandler`.**
- **Users service.** `register`, `checkEmailExist`, `login`, `logout`, `verifyEmail`, `resendVerifyEmail` and `forgotPassword` are transitions on an immutable database value.
- **Users controllers.** These are the branch logic of the controllers that inspect what the service returns.
- **Tweets service.** `checkAndCreateHashtag` (hashtag get-or-create) and `createTweet`.
- **Helpers.** `filterMiddleware` with lodash `pick`, `numberEnumToArray`, `verifyAccessToken`, the username pattern `REGEX_USERNAME` and the part filter of `handleUploadSingleImage`.

A collection is a sequence in natural order. `findOne`, `updateOne` and `deleteOne` act on the first matching document.

Library predicates the code calls are fields of the `Library.Lib` record. They are treated as opaque functions:

- `ObjectId.isValid`;
- validator.js `isEmail` and `isISO8601`;
- the symbol class of `isStrongPassword`;
- `hashPassword` and date parsing.

JWT verification is a `Verifier` function. Freshly generated ids, signed tokens and the clock are parameters.

Modules follow the files of the repository:

| Dafny file | Models |
|---|---|
| `users_rules.dfy` | `users.middlewares.ts` |
| `tweets_rules.dfy` | `tweetsValidator` |
| `tweets_access.dfy` | `tweetIdValidator` and `audienceValidator` |
| `users_service.dfy` | `users.services.ts` |
| `users_controllers.dfy` | `users.controllers.ts` |
| `tweets_service.dfy` | `tweets.services.ts` |
| `validation.dfy` | `validation.ts` |
| `error_handler.dfy` | `error.middlewares.ts` |
| `filter.dfy` | `common.middlewares.ts` |
| `common.dfy` | `common.ts` |
| `username.dfy` | `regex.ts` |
| `upload.dfy` | `file.ts` |

The remaining files provide shared support:

- `query.dfy`: collection operations;
- `text.dfy`: JavaScript `trim`, `split`, lodash `capitalize` and character classes;
- `js.dfy`: JSON values and express-validator's string conversion;
- `schemas.dfy`: the documents;
- `enums.dfy`, `errors.dfy`, `wrappers.dfy`, `library.dfy`.

## Model

| member | source | states |
|---|---|---|
| Common.NumberEnumToArray | src/utils/common.ts:12-14 | only numbers come out, each one a number value of the enum object, and every number value of the object is in the result |
| Common.NumberEnumToArrayAppend | src/utils/common.ts:12-14 | filtering distributes over concatenation, so the numbers keep their order in the enum object |
| Common.NumberEnumOfEnumObject | src/utils/common.ts:12-14 | for a compiled numeric enum with n members (reverse-mapped names first, then the numbers), the result is exactly 0, 1, ..., n-1 |
| Common.UserVerifyStatusNumbers | src/constants/enums.ts:1-5 | `numberEnumToArray(UserVerifyStatus)` is `[0, 1, 2]` |
| Common.VerifyAccessToken | src/utils/common.ts:16-39 | an empty token gives 401 ACCESS_TOKEN_IS_REQUIRED without consulting the verifier; a rejected token gives 401 with the verifier's message capitalized; success holds exactly when the token is non-empty and verifies; the payload is attached to the request exactly when there is one, and returned otherwise |
| Filter.Pick | src/middlewares/common.middlewares.ts:9-10 | the picked keys are exactly the body keys that are filter keys, each with its original value |
| Filter.FilterMiddleware | src/middlewares/common.middlewares.ts:7-12 | the next body holds only filter keys, drops nothing that was both a body key and a filter key, and alters no value |
| Filter.PickIdempotent | src/middlewares/common.middlewares.ts:10 | picking the same keys twice is picking once |
| ErrorHandler.DefaultErrorHandler | src/middlewares/error.middlewares.ts:5-7 | the status is `err.status` when truthy and 500 otherwise; the body is every property of the error except `status`, with its value unchanged |
| ErrorHandler.ForwardedErrorResponse | src/middlewares/error.middlewares.ts:5-7 | a forwarded `ErrorWithStatus` is answered with its own status (500 when that is 0) and a body holding only its message |
| Validation.Validate | src/utils/validation.ts:8-25 | forwards exactly when some field error is an `ErrorWithStatus` other than 422, and then forwards the first such one; answers 422 with all errors exactly when there are errors and none forwards; proceeds exactly when there are no errors |
| Validation.Collect | src/utils/validation.ts:12-13 | the field errors are the fields whose check failed, each with its recorded error; none exactly when no field failed |
| Validation.CollectKeeps | src/utils/validation.ts:12-13 | every failed field's error is among the collected errors |
| Validation.PlainErrorsNeverForward | src/utils/validation.ts:14-24 | a schema whose failures are all plain messages never forwards, and proceeds exactly when no field failed |
| Username.MatchUsername | src/constants/regex.ts:1-6 | accepts exactly the strings of 4 to 15 characters from `A-Z a-z 0-9 _` that are not all digits |
| Username.Examples | src/constants/regex.ts:1-6 | "1234" is refused by the lookahead; "user_1" and "____" are accepted |
| Upload.HandleUploadSingleImage | src/utils/file.ts:15-62 | a parse error wins; otherwise any part refused by the filter gives "invalid file type", no parts gives "no image", and when every part passes the first `image` part is the result, which always passes the filter |
| UsersService.Register | src/services/users.services.ts:71-93 | exactly one user is appended, with the fresh id, the hashed password, the parsed birth date, the verification token and status Unverified; one refresh-token record is appended for that user; the token pair is returned; nothing else changes |
| UsersService.RegisterKeepsIdsUnique | src/services/users.services.ts:71-93 | with a fresh id, user ids stay unique |
| UsersService.CheckEmailExist | src/services/users.services.ts:95-98 | true exactly when some user has that email |
| UsersService.Login | src/services/users.services.ts:100-109 | only one refresh-token record, holding the returned token, is added |
| UsersService.Logout | src/services/users.services.ts:111-114 | at most one refresh-token record is removed, and only one holding that token; the store is unchanged exactly when no record holds it; nothing else changes |
| UsersService.LogoutRevokes | src/services/users.services.ts:111-114 | after logout the token is still stored exactly when it was stored at least twice |
| UsersService.LoginThenLogout | src/services/users.services.ts:100-114 | logging in then logging out with the issued (previously unknown) token restores the database |
| UsersService.VerifyEmail | src/services/users.services.ts:116-138 | the user with that id gets an empty verification token, status Verified and a new `updated_at`; every other user and collection is unchanged |
| UsersService.ResendVerifyEmail | src/services/users.services.ts:154-166 | only the verification token and `updated_at` of that user change; one document matches exactly when the user exists |
| UsersService.ForgotPassword | src/services/users.services.ts:168-182 | only the forgot-password token and `updated_at` of that user change; one document matches exactly when the user exists |
| UsersRules.NameChain | src/middlewares/users.middlewares.ts:63-79 | the name passes exactly when it is a string whose trimmed form has 1 to 100 characters as validator.js `isLength` counts them (code points, not counting U+FE0E and U+FE0F) |
| UsersRules.RegisterEmailChain | src/middlewares/users.middlewares.ts:80-98 | the email passes exactly when it is non-empty and an email (for an array, every element), and it is not a string whose trimmed form a user already has; a taken email gives EMAIL_ALREADY_EXISTS |
| UsersRules.ArrayEmailSkipsUniqueness | src/middlewares/users.middlewares.ts:80-98 | an array holding one registered email passes the email chain, because the lookup with an array matches no stored string email |
| UsersRules.RegisterEmailChainStrict | src/middlewares/users.middlewares.ts:80-98 | the corrected chain passes exactly when the email is a non-empty string, is an email, and no user has its trimmed form; then no stored user has that email |
| UsersRules.StrictEmailRejectsArray | src/middlewares/users.middlewares.ts:80-98 | the corrected chain answers EMAIL_INVALID for an array email |
| UsersRules.PasswordChain | src/middlewares/users.middlewares.ts:99-124 | the password passes exactly when it is a string whose trimmed form has 6 to 50 characters as `isLength` counts them, at least 6 UTF-16 code units, and a lowercase letter, an uppercase letter, a digit and a symbol that is neither a letter nor a digit; each failure message names the failed check |
| UsersRules.ConfirmPasswordChain | src/middlewares/users.middlewares.ts:125-154 | the confirmation passes exactly when it meets the password policy and its trimmed value equals the (already trimmed) password |
| UsersRules.DateOfBirthChain | src/middlewares/users.middlewares.ts:155-164 | passes exactly when non-empty and ISO 8601; the only error is DATE_OF_BIRTH_INVALID |
| UsersRules.RegisterSchemaOutcome | src/middlewares/users.middlewares.ts:62-166 | the registration schema never forwards, proceeds exactly when every field passes, and reports a failing email |
| UsersRules.RegisterValidatorSpec | src/middlewares/users.middlewares.ts:62-166 | registration proceeds exactly when every field rule holds, including the trimmed confirmation equalling the trimmed password and the email not being a string some user already has; it never forwards |
| UsersRules.RegisterRejectsTakenEmail | src/middlewares/users.middlewares.ts:88-95 | a string email whose trimmed form is registered makes registration answer 422 with EMAIL_ALREADY_EXISTS on `email` |
| UsersRules.LoginLookup | src/middlewares/users.middlewares.ts:22-28 | a user is found exactly when one has that email and, as stored password, the hash of the password sent |
| UsersRules.LoginEmailChain | src/middlewares/users.middlewares.ts:16-32 | the email passes exactly when it is an email and, being a string, its trimmed form finds a user with the hash of the password seen; the user found is returned |
| UsersRules.LoginValidator | src/middlewares/users.middlewares.ts:14-60 | login proceeds exactly when the email is valid, a string, and with the password as sent (untrimmed) finds a user, and the password chain passes; the attached user has the trimmed email and the hash of the untrimmed password; it never forwards |
| UsersRules.RegisterThenLogin | src/middlewares/users.middlewares.ts:14-166 | after `register`, a login with the same email and a password with no surrounding whitespace passes and finds a user with that email and stored hash |
| UsersRules.PaddedPasswordLoginFails | src/middlewares/users.middlewares.ts:14-166 | as written, registering and then logging in with the same whitespace-padded password fails whenever the two hashes differ and no other user matches |
| UsersRules.LoginValidatorTrimmed | src/middlewares/users.middlewares.ts:14-60 | the corrected login rule looks the user up with the trimmed password; it proceeds exactly when that lookup finds a user and the other checks pass, and the user holds the hash of the trimmed password |
| UsersRules.RegisterThenLoginTrimmed | src/middlewares/users.middlewares.ts:14-166 | with the corrected rule, register then login with any password meeting the policy passes and finds the registered user |
| UsersRules.ForgotPasswordKeepsLogin | src/services/users.services.ts:168-182 | a password-reset request changes no email or stored password, so every login lookup finds a user afterwards exactly when it did before |
| UsersRules.AccessTokenShape | src/middlewares/users.middlewares.ts:176-177 | a non-empty token from `split(' ')[1]` sits right after the first space of the header, ended by the end of the header or a space |
| UsersRules.AccessTokenValidator | src/middlewares/users.middlewares.ts:168-202 | a missing or empty header gives 422; a header without a second segment forwards 401 ACCESS_TOKEN_IS_REQUIRED; it proceeds exactly when the token verifies, with the payload attached; every forward is 401 |
| UsersRules.RefreshTokenValidator | src/middlewares/users.middlewares.ts:204-247 | a value failing `notEmpty` answers 422 REFRESH_TOKEN_IS_REQUIRED; a token the JWT library rejects, and any non-string value that passes `notEmpty`, forwards 401 with the library's message capitalized; it proceeds exactly when the token is a non-empty string that verifies and is stored; a valid token that is not stored forwards 401 REFRESH_TOKEN_IS_USED_OR_NOT_EXIST; every forward is 401 |
| UsersRules.RefreshTokenUnusableAfterLogout | src/middlewares/users.middlewares.ts:212-240 | after logout with a token stored at most once, the refresh rule refuses it, and forwards 401 REFRESH_TOKEN_IS_USED_OR_NOT_EXIST when it verifies |
| UsersControllers.GetUserById | src/controllers/users.controllers.ts:61 | the lookup finds a user exactly when one has that id, and returns a stored user with that id |
| UsersControllers.VerifyEmailController | src/controllers/users.controllers.ts:56-77 | 404 exactly for an unknown user and an empty token gives EMAIL_ALREADY_VERIFIED_BEFORE, both leaving the store as it was; a known user with a token gets `verifyEmail`'s store and 200 EMAIL_VERIFY_SUCCESS |
| UsersControllers.VerifyEmailIdempotent | src/controllers/users.controllers.ts:56-77 | verifying twice: the second request answers EMAIL_ALREADY_VERIFIED_BEFORE and changes nothing |
| UsersControllers.ResendVerifyEmailController | src/controllers/users.controllers.ts:79-95 | 404 exactly for an unknown user; a Verified user gets EMAIL_ALREADY_VERIFIED_BEFORE and no change; any other known user gets `resendVerifyEmail`'s store and 200 RESEND_VERIFY_EMAIL_SUCCESS |
| UsersControllers.VerifiedUserGetsNoNewToken | src/controllers/users.controllers.ts:56-95 | after a successful email verification, a resend request changes nothing |
| UsersControllers.GetMeController | src/controllers/users.controllers.ts:123-133 | 404 exactly when the lookup finds nothing, else 200 with the record |
| UsersControllers.UpdateMeController | src/controllers/users.controllers.ts:135-146 | 404 exactly when the update returns no document, else 200 with it |
| UsersControllers.GetProfileController | src/controllers/users.controllers.ts:148-155 | 404 exactly when no user has the username, else 200 with the profile |
| UsersControllers.FollowController | src/controllers/users.controllers.ts:157-167 | 500 FOLLOW_FAILED exactly when the service result is falsy |
| UsersControllers.UnfollowController | src/controllers/users.controllers.ts:169-179 | 500 UNFOLLOW_FAILED exactly when the service result is falsy |
| UsersControllers.ChangePasswordController | src/controllers/users.controllers.ts:181-194 | success exactly when the write was acknowledged and modified a document, otherwise 500 CHANGE_PASSWORD_FAILED |
| UsersControllers.ChangePasswordUnknownUserFails | src/controllers/users.controllers.ts:181-194 | a password change for an id no user has matches nothing and so answers 500 |
| TweetsRules.EnumArrays | src/middlewares/tweets.middleswares.ts:15-16 | the tweet types are `[0, 1, 2, 3]` and the audiences `[0, 1]` |
| TweetsRules.TypeNumberIsIn | src/middlewares/tweets.middleswares.ts:20-25 | a JSON number passes the `type` rule exactly when it is 0 to 3 |
| TweetsRules.AudienceNumberIsIn | src/middlewares/tweets.middleswares.ts:26-31 | a JSON number passes the `audience` rule exactly when it is 0 or 1 |
| TweetsRules.TypeRule | src/middlewares/tweets.middleswares.ts:20-25 | the type passes exactly when its string form is one of the type codes' |
| TweetsRules.AudienceRule | src/middlewares/tweets.middleswares.ts:26-31 | the audience passes exactly when its string form is one of the audience codes' |
| TweetsRules.ParentRule | src/middlewares/tweets.middleswares.ts:32-50 | for a recognised retweet, comment or quote tweet the parent must be a valid ObjectId, for a recognised tweet it must be `null`, and otherwise anything passes |
| TweetsRules.NullParentRejected | src/middlewares/tweets.middleswares.ts:36-40 | a retweet, comment or quote tweet with a `null` parent is refused, since `null` is never a valid ObjectId |
| TweetsRules.ContentRule | src/middlewares/tweets.middleswares.ts:51-77 | content must be a string; a recognised retweet's must be blank; other recognised types with no mentions and hashtags need non-blank content, where "no" means missing, falsy, an empty array or an object whose `length` is 0 |
| TweetsRules.LengthZeroObjectHasNoItems | src/middlewares/tweets.middleswares.ts:65-72 | an original tweet with empty content, no hashtags and `mentions` of `{"length": 0}` gets TWEET_CONTENT_CANNOT_BE_EMPTY |
| TweetsRules.HashtagsRule | src/middlewares/tweets.middleswares.ts:78-92 | passes exactly for an array of strings |
| TweetsRules.MentionsRule | src/middlewares/tweets.middleswares.ts:93-107 | passes exactly for an array of valid ObjectIds, none of them `null` |
| TweetsRules.MediasRule | src/middlewares/tweets.middleswares.ts:108-122 | passes exactly for an array of objects with `url` and `type`; a `null` item makes the message the TypeError text |
| TweetsRules.TweetsSchemaOutcome | src/middlewares/tweets.middleswares.ts:18-124 | the tweet schema never forwards and proceeds exactly when every field passes |
| TweetsRules.TweetsValidatorSpec | src/middlewares/tweets.middleswares.ts:18-124 | the tweet body is accepted exactly when type and audience pass `isIn`, the arrays are well formed, content is a string, and, when the type is a JSON number, parent and content agree with it |
| TweetsRules.StringTypeSkipsTypeRules | src/middlewares/tweets.middleswares.ts:20-72 | a retweet whose type is the string "1", with content "hello" and no `parent_id`, is accepted although it breaks the retweet rules |
| TweetsRules.TypeRuleStrict | src/middlewares/tweets.middleswares.ts:20-25 | the corrected type rule accepts exactly a JSON number that is a type code, and anything it accepts also passes `isIn` |
| TweetsRules.TweetsValidatorStrictSpec | src/middlewares/tweets.middleswares.ts:18-124 | with the corrected type rule, a body is accepted exactly when its type is a code k, audience and arrays pass, and parent and content agree with k |
| TweetsRules.StrictNarrowsAsWritten | src/middlewares/tweets.middleswares.ts:18-124 | every body the corrected validator accepts, the written one accepts too |
| TweetsRules.StrictRejectsStringType | src/middlewares/tweets.middleswares.ts:20-25 | the corrected validator answers 422 for the string-typed retweet |
| TweetsAccess.Children | src/middlewares/tweets.middleswares.ts:191-198 | the children are exactly the stored tweets whose `parent_id` is the tweet's id |
| TweetsAccess.ChildCountIsStoreCount | src/middlewares/tweets.middleswares.ts:207-239 | counting a type among the children is counting stored tweets with that parent and type |
| TweetsAccess.Aggregate | src/middlewares/tweets.middleswares.ts:144-249 | each child count is the number of stored tweets with that parent and type, the three together never exceed the children; the bookmark and like counts are the numbers of records naming the tweet, zero exactly when none does |
| TweetsAccess.TweetIdValidator | src/middlewares/tweets.middleswares.ts:126-267 | a malformed id forwards 400 TWEET_ID_INVALID; a well-formed unknown id forwards 404 TWEET_NOT_FOUND; it proceeds exactly when the id is valid and stored, attaching that tweet with its counts |
| TweetsAccess.AudienceValidator | src/middlewares/tweets.middleswares.ts:271-303 | a tweet for everyone passes; a circle tweet without a viewer is 401, a missing or banned author 404 USER_NOT_FOUND, a viewer outside the circle 403 TWEET_NOT_PUBLIC |
| TweetsAccess.AudienceVisibility | src/middlewares/tweets.middleswares.ts:283-300 | a circle tweet is visible exactly to a signed-in viewer who is the author or in the author's circle, when the author exists and is not banned; a missing or banned author gives 404 USER_NOT_FOUND, and any other signed-in viewer 403 TWEET_NOT_PUBLIC |
| TweetsService.Upsert | src/services/tweets.services.ts:10-22 | an existing hashtag is returned unchanged with the store as it was; otherwise one document with the fresh id is appended; either way it is the first document with that name |
| TweetsService.CheckAndCreateHashtag | src/services/tweets.services.ts:8-26 | one document per name in input order, each the first with its name in the final store; the store only grows at its end, by documents named after inputs |
| TweetsService.UpsertKeepsNamesUnique | src/services/tweets.services.ts:8-26 | a store with unique hashtag names keeps them unique |
| TweetsService.CheckAndCreateHashtagIdempotent | src/services/tweets.services.ts:8-26 | asking again for the same names returns the same documents and adds nothing |
| TweetsService.CreateTweet | src/services/tweets.services.ts:28-43 | exactly one tweet is appended, with author, type, audience, content, parent, mentions and medias copied, and as hashtags the ids of stored documents with the requested names in order; users, tokens, bookmarks and likes are untouched |

## Left out

- The video-encoding queue and its status transitions: only the `VideoEncodeStatus` enum is kept.
- Sockets, route wiring, configuration, the database connection and file I/O.
- The `TweetType` and `TweetAudience` enum declarations are not modelled. Their member order (Tweet, Retweet, Comment, QuoteTweet; Everyone, TwitterCircle) is taken as given.
- Hashing, JWT signing and verification, `ObjectId` generation, `isEmail`, `isISO8601` and date parsing: these enter as opaque functions of `Library.Lib` or as parameters. Fresh ids, signed tokens and the clock are inputs.
- The chains of a schema are run one after another in declaration order, as src/utils/validation.ts:10 describes. So the confirm-password check sees the trimmed password and the login lookup sees the untrimmed one.
- Express-validator's `errorMessage` fallbacks for validators without their own message are folded into each chain's messages.
- TweetsAccess.TweetIdValidator: reads `tweet_id` from the route parameters only. The schema also lists the body as a location.
- TweetsAccess.Aggregate: the hashtag and mention lookups and the projection of the aggregation are not modelled. Only the counts and the tweet itself are.
- Numbers are integers. Fractional JSON numbers and their string forms are not modelled.
- Text.Capitalize: maps ASCII letters only. Unicode case mapping is left out.
- Filter.Pick: takes filter keys as plain property names. Lodash's reading of a dotted key as a deep path is left out.
- Upload.HandleUploadSingleImage: the one-file and 1 MB limits are enforced by the multipart parser. They reach the model as a parse error. The parser itself and the temporary files are not modelled.
- TweetsService.CheckAndCreateHashtag: the concurrent upserts of `Promise.all` are taken one after another in input order.
- TweetsService.CreateTweet: takes the body already validated and typed. The mentions are not converted to `ObjectId`s, and `insertOne`'s result is not returned.
- The `verifyForgotPassword`, `resetPassword`, `register`, `logout` and OAuth controllers are not modelled. They pass service results on. `register` and `logout` are modelled as services; the services the others call are not defined in src/services/users.services.ts.
- UsersService.Login and UsersService.ForgotPassword: `loginController` (src/controllers/users.controllers.ts:31) and `forgotPasswordController` (src/controllers/users.controllers.ts:102) pass an object `{ user_id, verify }`, while the services are declared to take a user-id string (src/services/users.services.ts:100, 168) and give it to `new ObjectId(user_id)`, which throws for an object. The two members model the services as declared, taking the user-id string; the route-level calls, which as written end in the error handler, are not modelled.
- UsersRules.SanitizeTrim: keeps a non-string value as it was, where express-validator's `trim` stores its string form trimmed. No modelled outcome depends on it, because such a password already fails `isString`.
- The `forgotPasswordValidator`, `verifyForgotPasswordTokenValidator`, `resetPasswordValidator`, `updateMeValidator`, `followValidator` and other user validators not covered above are not modelled.
- UsersControllers: service methods whose bodies are not modelled (`getUserByIdPublic`, `updateMe`, `getUserByUsernamePublic`, `followUser`, `unfollowUser`, `changePassword`) enter as their results.
- UsersControllers.GetUserById: `usersService.getUserById` is called at src/controllers/users.controllers.ts:61 and 81 but is not defined in src/services/users.services.ts. It is taken to be `findOne` by `_id`, the first user with that id.
- UsersControllers.ChangePasswordUnknownUserFails: `changePassword` is not defined in src/services/users.services.ts. The lemma takes it to be an `updateOne` of the user with that id; `ChangePasswordController` itself only takes the update result.
- UsersService.ForgotPassword: the `console.log` of the new token (the stand-in for sending the email) is not modelled.
- UsersRules.LoginEmailChain: a non-string email (an array or an object) is taken to match no user. MongoDB's matching of an array or of query operators inside an object against the stored email is not modelled.
- Text.VisibleLength and Text.Utf16Length: `isLength` counts code points other than U+FE0E and U+FE0F, and `isStrongPassword` measures length in UTF-16 code units. Both counts are modelled; a string is a sequence of code points, so lone surrogates are not.
- UsersRules.RefreshTokenValidator: `verifyToken` (src/utils/jwt.ts) is not part of this model. It is taken to reject with jsonwebtoken's own error, so a non-string token gets jsonwebtoken's "jwt must be provided" (falsy value) or "jwt must be a string".
- UsersRules.RefreshTokenUnusableAfterLogout: requires the token to be stored at most once. A token stored twice stays usable after one logout, as `UsersService.LogoutRevokes` states.
- `ObjectId` values are compared as strings. `ObjectId` normalisation is left out.

## Findings

| source | as written | input that shows it | evidently intended | confidence | as-written member | corrected member |
|---|---|---|---|---|---|---|
| src/middlewares/tweets.middleswares.ts:20-72 | `type` is checked with `isIn(tweetTypes)`, which compares string forms, so `"1"` passes. The `parent_id` and `content` rules then test the type with `includes` and `===` against numbers, and they are skipped for a string | `{ "type": "1", "audience": 0, "content": "hello", "hashtags": [], "mentions": [], "medias": [] }` with no `parent_id`: accepted as a retweet with content and no parent | the type must be a TweetType number, so every accepted body obeys its type's parent and content rules | not executed | TweetsRules.StringTypeSkipsTypeRules | TweetsRules.TweetsValidatorStrictSpec |
| src/middlewares/users.middlewares.ts:80-98 | `notEmpty` and `isEmail` accept an array whose elements pass, `trim` trims each element, and `checkEmailExist(value)` then queries `{ email: [...] }`, which matches no stored string email | register with `"email": ["taken@example.com"]` where that email is registered: the uniqueness check passes | the email must be a single string, and a taken one is refused | not executed | UsersRules.ArrayEmailSkipsUniqueness | UsersRules.RegisterEmailChainStrict |
| src/middlewares/users.middlewares.ts:22-28 | the email chain's lookup hashes `req.body.password` before the password chain trims it, while `register` stores the hash of the trimmed password | register and then log in with password `" Abc12!x"`: the lookup hashes `" Abc12!x"`, the stored hash is of `"Abc12!x"`, and login answers EMAIL_OR_PASSWORD_INCORRECT | login with the password used at registration succeeds | not executed | UsersRules.PaddedPasswordLoginFails | UsersRules.RegisterThenLoginTrimmed |

=== FILE: common.dfy ===
/**
  Helpers of src/utils/common.ts: turning a numeric enum into the list of
  its numbers, and checking an access token outside a validator chain.
 */
module Common {
  import opened Wrappers
  import opened Js
  import opened Text
  import opened Errors
  import opened Library

  /**
    `Object.values` of a compiled numeric TypeScript enum with members
    `names`: the object maps "0".."n-1" back to the names and each name to
    its number, and integer-like keys are listed first.
   */
  function EnumObjectValues(names: seq<string>): (vs: seq<Json>)
    ensures |vs| == 2 * |names|
  {
    seq(|names|, i requires 0 <= i < |names| => JStr(names[i])) + seq(|names|, i requires 0 <= i < |names| => JNum(i))
  }

  /**
    `numberEnumToArray`: the values that are numbers, in their original
    order. Only numbers come out, every number goes in, nothing is added.
   */
  function NumberEnumToArray(values: seq<Json>): (r: seq<int>)
    ensures |r| <= |values|
    ensures forall k :: 0 <= k < |r| ==> JNum(r[k]) in values
    ensures forall i :: 0 <= i < |values| && values[i].JNum? ==> values[i].n in r
  {
    if |values| == 0 then []
    else
      var rest := NumberEnumToArray(values[1..]);
      assert forall k :: 0 <= k < |rest| ==> JNum(rest[k]) in values;
      assert forall i :: 1 <= i < |values| ==> values[i] == values[1..][i - 1];
      (if values[0].JNum? then [values[0].n] else []) + rest
  }

  /** Filtering distributes over concatenation, so the relative order of the numbers is kept. */
  lemma {:induction false} NumberEnumToArrayAppend(a: seq<Json>, b: seq<Json>)
    ensures NumberEnumToArray(a + b) == NumberEnumToArray(a) + NumberEnumToArray(b)
  {
    if |a| > 0 {
      assert (a + b)[1..] == a[1..] + b;
      NumberEnumToArrayAppend(a[1..], b);
    } else {
      assert a + b == b;
    }
  }

  /** The reverse-mapped names are all dropped. */
  lemma {:induction false} NamesDropped(names: seq<string>)
    ensures NumberEnumToArray(seq(|names|, i requires 0 <= i < |names| => JStr(names[i]))) == []
  {
    if |names| > 0 {
      var s := seq(|names|, i requires 0 <= i < |names| => JStr(names[i]));
      assert s[1..] == seq(|names| - 1, i requires 0 <= i < |names| - 1 => JStr(names[1..][i]));
      NamesDropped(names[1..]);
    }
  }

  /** The numbers `lo`, `lo + 1`, ..., `hi - 1` as enum values, and as the numbers themselves. */
  function NumsFrom(lo: nat, hi: nat): seq<Json>
    requires lo <= hi
    decreases hi - lo
  {
    if lo == hi then [] else [JNum(lo)] + NumsFrom(lo + 1, hi)
  }

  function Range(lo: nat, hi: nat): seq<int>
    requires lo <= hi
    decreases hi - lo
  {
    if lo == hi then [] else [lo as int] + Range(lo + 1, hi)
  }

  lemma {:induction false} NumbersKept(lo: nat, hi: nat)
    requires lo <= hi
    ensures NumberEnumToArray(NumsFrom(lo, hi)) == Range(lo, hi)
    decreases hi - lo
  {
    if lo < hi {
      NumbersKept(lo + 1, hi);
    }
  }

  lemma NumsFromIsSeq(n: nat)
    ensures NumsFrom(0, n) == seq(n, i requires 0 <= i < n => JNum(i))
  {
    NumsFromIsSeqFrom(0, n);
  }

  lemma {:induction false} NumsFromIsSeqFrom(k: nat, n: nat)
    requires k <= n
    ensures NumsFrom(k, n) == seq(n, i requires 0 <= i < n => JNum(i))[k..]
    decreases n - k
  {
    if k < n {
      NumsFromIsSeqFrom(k + 1, n);
    }
  }

  /** For a numeric enum with `n` members, `numberEnumToArray` yields exactly 0, 1, ..., n-1. */
  lemma NumberEnumOfEnumObject(names: seq<string>)
    ensures NumberEnumToArray(EnumObjectValues(names)) == Range(0, |names|)
  {
    var strs := seq(|names|, i requires 0 <= i < |names| => JStr(names[i]));
    var nums := seq(|names|, i requires 0 <= i < |names| => JNum(i));
    NumberEnumToArrayAppend(strs, nums);
    NamesDropped(names);
    NumsFromIsSeq(|names|);
    NumbersKept(0, |names|);
  }

  /** `numberEnumToArray(UserVerifyStatus)` is `[0, 1, 2]`. */
  lemma UserVerifyStatusNumbers()
    ensures NumberEnumToArray(EnumObjectValues(Enums.UserVerifyStatusNames)) == [0, 1, 2]
  {
    NumberEnumOfEnumObject(Enums.UserVerifyStatusNames);
    assert Range(0, 3) == [0, 1, 2];
  }

  /** How a successful `verifyAccessToken` ends: the payload is attached to the request, or returned. */
  datatype AccessCheck = AttachedToRequest(payload: TokenPayload) | Returned(payload: TokenPayload)

  /**
    `verifyAccessToken`: an empty token is refused with 401 before the
    verifier is consulted; a token the verifier rejects is refused with 401
    and the verifier's message capitalized; an accepted token's payload is
    stored on the request when one is given, and returned otherwise.
   */
  function VerifyAccessToken(accessToken: string, hasRequest: bool, verify: Verifier): (r: Result<AccessCheck, ErrorWithStatus>)
    ensures accessToken == "" ==> r == Err(ErrorWithStatus(UNAUTHORIZED, AccessTokenIsRequired))
    ensures r.Err? ==> r.error.status == UNAUTHORIZED
    ensures r.Ok? <==> accessToken != "" && verify(accessToken).Ok?
    ensures r.Ok? ==> r.value.payload == verify(accessToken).value && (r.value.AttachedToRequest? <==> hasRequest)
    ensures accessToken != "" && verify(accessToken).Err? ==>
              r == Err(ErrorWithStatus(UNAUTHORIZED, Custom(Capitalize(verify(accessToken).error.message))))
  {
    if accessToken == "" then Err(ErrorWithStatus(UNAUTHORIZED, AccessTokenIsRequired))
    else match verify(accessToken)
      case Err(e) => Err(ErrorWithStatus(UNAUTHORIZED, Custom(Capitalize(e.message))))
      case Ok(p) => if hasRequest then Ok(AttachedToRequest(p)) else Ok(Returned(p))
  }
}

=== FILE: enums.dfy ===
/**
  The numeric TypeScript enums of the application. Each enum member is
  numbered from 0 in declaration order; `Code` gives that number and
  `Names` the declaration order, which is what the enum object holds.
 */
module Enums {

  datatype UserVerifyStatus = Unverified | Verified | Banned {
    function Code(): nat {
      match this
      case Unverified => 0
      case Verified => 1
      case Banned => 2
    }
  }

  const UserVerifyStatusNames: seq<string> := ["Unverified", "Verified", "Banned"]

  datatype TokenType = AccessToken | RefreshToken | EmailVerifyToken | ForgotPasswordToken

  datatype MediaType = Image | Video | VideoHLS

  /** Status values of a video-encoding job; the queue that moves jobs between them is not modelled. */
  datatype VideoEncodeStatus = Pending | Processing | Success | Failed

  /** Kinds of tweet; `Retweet`, `Comment` and `QuoteTweet` have a parent tweet. */
  datatype TweetType = Tweet | Retweet | Comment | QuoteTweet {
    function Code(): nat {
      match this
      case Tweet => 0
      case Retweet => 1
      case Comment => 2
      case QuoteTweet => 3
    }
  }

  const TweetTypeNames: seq<string> := ["Tweet", "Retweet", "Comment", "QuoteTweet"]

  /** Who may read a tweet: everyone, or only the author's Twitter circle. */
  datatype TweetAudience = Everyone | TwitterCircle {
    function Code(): nat {
      match this
      case Everyone => 0
      case TwitterCircle => 1
    }
  }

  const TweetAudienceNames: seq<string> := ["Everyone", "TwitterCircle"]

  /** The tweet type with a given numeric code, if there is one. */
  function TweetTypeOfCode(n: int): (t: TweetType)
    requires 0 <= n < 4
    ensures t.Code() == n
  {
    if n == 0 then Tweet else if n == 1 then Retweet else if n == 2 then Comment else QuoteTweet
  }

  function TweetAudienceOfCode(n: int): (a: TweetAudience)
    requires 0 <= n < 2
    ensures a.Code() == n
  {
    if n == 0 then Everyone else TwitterCircle
  }
}

=== FILE: error_handler.dfy ===
/**
  `defaultErrorHandler`: answers with the error's `status` when it is truthy
  and 500 otherwise, and sends the error's own enumerable properties except
  `status` as the JSON body. It never calls `next`: its only outcome is a
  response.
 */
module ErrorHandler {
  import opened Js
  import opened Errors

  datatype ErrorResponse = ErrorResponse(status: Json, body: map<string, Json>)

  /** `err.status || 500`. */
  predicate HasTruthyStatus(err: map<string, Json>) {
    "status" in err && Truthy(err["status"])
  }

  function DefaultErrorHandler(err: map<string, Json>): (r: ErrorResponse)
    ensures HasTruthyStatus(err) ==> r.status == err["status"]
    ensures !HasTruthyStatus(err) ==> r.status == JNum(INTERNAL_SERVER_ERROR)
    ensures "status" !in r.body
    ensures r.body.Keys == err.Keys - {"status"}
    ensures forall k :: k in r.body ==> r.body[k] == err[k]
  {
    var status := if HasTruthyStatus(err) then err["status"] else JNum(INTERNAL_SERVER_ERROR);
    ErrorResponse(status, map k | k in err && k != "status" :: err[k])
  }

  /** The enumerable properties of an `ErrorWithStatus` whose message reads `text`. */
  function ErrorObject(e: ErrorWithStatus, text: string): map<string, Json> {
    map["message" := JStr(text), "status" := JNum(e.status)]
  }

  /**
    An `ErrorWithStatus` forwarded by `validate` is answered with its own
    status and a body holding only its message; a zero status falls back to 500.
   */
  lemma ForwardedErrorResponse(e: ErrorWithStatus, text: string)
    ensures e.status != 0 ==> DefaultErrorHandler(ErrorObject(e, text)).status == JNum(e.status)
    ensures e.status == 0 ==> DefaultErrorHandler(ErrorObject(e, text)).status == JNum(INTERNAL_SERVER_ERROR)
    ensures DefaultErrorHandler(ErrorObject(e, text)).body == map["message" := JStr(text)]
  {
    var r := DefaultErrorHandler(ErrorObject(e, text));
    assert r.body.Keys == {"message"};
  }
}

=== FILE: errors.dfy ===
/**
  HTTP status codes, the application's message constants, and the error
  values request handlers raise. A message is identified by its constant's
  name; `Custom` carries text computed at run time (a JWT library error
  message, a thrown `Error`'s message).
 */
module Errors {

  const OK := 200
  const BAD_REQUEST := 400
  const UNAUTHORIZED := 401
  const FORBIDDEN := 403
  const NOT_FOUND := 404
  const UNPROCESSABLE_ENTITY := 422
  const INTERNAL_SERVER_ERROR := 500

  datatype Message =
    // users
    | NameIsRequired | NameMustBeString | NameLengthInvalid
    | EmailIsRequired | EmailInvalid | EmailAlreadyExists | EmailOrPasswordIncorrect
    | PasswordIsRequired | PasswordMustBeString | PasswordLengthInvalid | PasswordNotStrongEnough
    | ConfirmPasswordIsRequired | ConfirmPasswordMustBeString | ConfirmPasswordLengthInvalid
    | ConfirmPasswordNotStrongEnough | ConfirmPasswordNotMatch
    | DateOfBirthInvalid
    | LoginSuccess | RegisterSuccess | LogoutSuccess
    | AccessTokenIsRequired | RefreshTokenIsRequired | RefreshTokenIsUsedOrNotExist
    | UserNotFound | EmailAlreadyVerifiedBefore | EmailVerifySuccess | ResendVerifyEmailSuccess
    | GetMeSuccess | UpdateMeSuccess | GetProfileSuccess
    | FollowSuccess | FollowFailed | UnfollowSuccess | UnfollowFailed
    | ChangePasswordSuccess | ChangePasswordFailed
    // tweets
    | TweetTypeInvalid | TweetAudienceInvalid
    | ParentIdMustBeValidTweetId | ParentIdMustBeNull
    | TweetContentMustBeString | TweetContentCannotBeEmpty
    | TweetHashtagsMustBeArray | TweetHashtagsMustBeArrayOfString
    | TweetMentionsMustBeArray | TweetMentionsMustBeArrayOfUserId
    | TweetMediasMustBeArray | TweetMediasMustBeArrayOfMediaObject
    | TweetIdInvalid | TweetNotFound | TweetNotPublic
    // run-time text
    | Custom(text: string)

  /** The `ErrorWithStatus` class: a message together with the HTTP status to answer with. */
  datatype ErrorWithStatus = ErrorWithStatus(status: int, message: Message)

  /**
    What a failed validator records as its message: a plain message (a
    thrown `Error`, or a validator's `errorMessage`), or an `ErrorWithStatus`
    thrown by a custom validator.
   */
  datatype ErrorMsg = Plain(message: Message) | WithStatus(error: ErrorWithStatus)
}

=== FILE: filter.dfy ===
/**
  `filterMiddleware(filterKeys)`: replaces the request body by lodash
  `pick(body, filterKeys)` and calls `next()` once. Keys are taken as plain
  property names (lodash would also read a dotted key as a deep path).
 */
module Filter {
  import opened Js

  /** The body keys that are also filter keys, each with its original value; nothing is introduced. */
  function Pick(body: map<string, Json>, keys: seq<string>): (r: map<string, Json>)
    ensures r.Keys == body.Keys * (set k | k in keys)
    ensures forall k :: k in r ==> r[k] == body[k]
  {
    map k | k in body && k in keys :: body[k]
  }

  /** The middleware's only outcome: `next()` with the filtered body in place. */
  datatype Step = Next(body: map<string, Json>)

  function FilterMiddleware(body: map<string, Json>, keys: seq<string>): (r: Step)
    ensures r.body.Keys <= body.Keys
    ensures forall k :: k in keys && k in body ==> k in r.body && r.body[k] == body[k]
    ensures forall k :: k in r.body ==> k in keys
  {
    Next(Pick(body, keys))
  }

  /** Filtering is idempotent. */
  lemma PickIdempotent(body: map<string, Json>, keys: seq<string>)
    ensures Pick(Pick(body, keys), keys) == Pick(body, keys)
  {
    var once := Pick(body, keys);
    assert Pick(once, keys).Keys == once.Keys;
  }
}

=== FILE: js.dfy ===
/**
  JSON values as they arrive in a request body, with the two JavaScript
  conversions the request rules depend on: truthiness and express-validator's
  conversion of a field value to the string its standard validators inspect.
  Numbers are integers only; fractional numbers are not modelled.
 */
module Js {
  import opened Wrappers

  datatype Json =
    | JNull
    | JBool(b: bool)
    | JNum(n: int)
    | JStr(s: string)
    | JArr(items: seq<Json>)
    | JObj(fields: map<string, Json>)

  /** JavaScript truthiness of a present value. */
  predicate Truthy(v: Json) {
    match v
    case JNull => false
    case JBool(b) => b
    case JNum(n) => n != 0
    case JStr(s) => s != ""
    case JArr(_) => true
    case JObj(_) => true
  }

  /** Property lookup on a body; a missing key reads as `undefined` (`None`). */
  function Get(body: map<string, Json>, key: string): (r: Option<Json>)
    ensures r.Some? <==> key in body
    ensures r.Some? ==> r.value == body[key]
  {
    if key in body then Some(body[key]) else None
  }

  function Digit(d: nat): (c: char)
    requires d < 10
    ensures '0' <= c <= '9'
  {
    ['0', '1', '2', '3', '4', '5', '6', '7', '8', '9'][d]
  }

  /** Decimal form of a natural number, as JavaScript's `String(n)` writes it. */
  function NatToDecimal(n: nat): (s: string)
    ensures 1 <= |s|
    ensures forall i :: 0 <= i < |s| ==> '0' <= s[i] <= '9'
    ensures |s| == 1 <==> n < 10
    ensures n < 10 ==> s == [Digit(n)]
  {
    if n < 10 then [Digit(n)] else NatToDecimal(n / 10) + [Digit(n % 10)]
  }

  function IntToDecimal(n: int): (s: string)
    ensures 1 <= |s|
    ensures 0 <= n < 10 ==> s == [Digit(n)]
    ensures |s| == 1 ==> 0 <= n < 10
  {
    if n < 0 then "-" + NatToDecimal(-n) else NatToDecimal(n)
  }

  /**
    JavaScript's string form of a present value: `null` joins as the empty
    string (as inside `Array.prototype.join`), an array is its elements'
    forms joined with commas, any other object is `[object Object]`.
   */
  function ValueString(v: Json): (s: string)
    decreases v
  {
    match v
    case JNull => ""
    case JBool(b) => if b then "true" else "false"
    case JNum(n) => IntToDecimal(n)
    case JStr(s) => s
    case JArr(items) => JoinComma(seq(|items|, i requires 0 <= i < |items| => ValueString(items[i])))
    case JObj(_) => "[object Object]"
  }

  function JoinComma(parts: seq<string>): string {
    if |parts| == 0 then ""
    else if |parts| == 1 then parts[0]
    else parts[0] + "," + JoinComma(parts[1..])
  }

  /**
    express-validator's `toString`: `undefined` and `null` become the empty
    string, every other value its JavaScript string form.
   */
  function ToStr(v: Option<Json>): (s: string)
    ensures v.Some? && v.value.JStr? ==> s == v.value.s
    ensures v.Some? && v.value.JNum? ==> s == IntToDecimal(v.value.n)
  {
    match v
    case None => ""
    case Some(x) => ValueString(x)
  }

  /**
    How express-validator applies a standard (validator.js) check: to an
    array value it applies the check to every element, so an empty array
    passes vacuously; to any other value it applies it once.
   */
  predicate StandardCheck(v: Option<Json>, ok: string -> bool) {
    match v
    case Some(JArr(items)) => forall i :: 0 <= i < |items| ==> ok(ValueString(items[i]))
    case _ => ok(ToStr(v))
  }

  /** JavaScript's `String(v)`, as used by string concatenation. */
  function JsString(v: Option<Json>): string {
    match v
    case None => "undefined"
    case Some(JNull) => "null"
    case Some(JStr(s)) => s
    case _ => ToStr(v)
  }

  /**
    `!x || x.length === 0` for a body field that should hold an array: true
    when the field is missing or falsy, an empty array, or an object whose
    `length` property is the number 0. A non-empty string, a non-zero
    number and `true` have no `length` equal to 0.
   */
  predicate HasNoItems(v: Option<Json>) {
    || v.None? || !Truthy(v.value) || v.value == JArr([])
    || (v.value.JObj? && "length" in v.value.fields && v.value.fields["length"] == JNum(0))
  }
}

=== FILE: library.dfy ===
/**
  The library calls the request rules depend on, taken as opaque functions:
  the model states what the application does with their answers, never how
  they compute them.
 */
module Library {
  import opened Wrappers
  import opened Js
  import opened Enums

  /** The claims of a signed JWT issued by the application. */
  datatype TokenPayload = TokenPayload(userId: string, tokenType: TokenType)

  /** Why `verifyToken` rejected a token: a `JsonWebTokenError` (bad signature, expiry, ...) or any other error. */
  datatype VerifyError = JwtError(message: string) | OtherError(message: string)

  /**
    jsonwebtoken's `verify` given a token that is not a string: it rejects
    with a `JsonWebTokenError` before looking at the token, "jwt must be
    provided" for a falsy value and "jwt must be a string" otherwise.
   */
  function NonStringTokenError(x: Json): (e: VerifyError)
    ensures e.JwtError?
    ensures Truthy(x) <==> e.message == "jwt must be a string"
  {
    JwtError(if Truthy(x) then "jwt must be a string" else "jwt must be provided")
  }

  /** `verifyToken` with a fixed secret. */
  type Verifier = string -> Result<TokenPayload, VerifyError>

  datatype Lib = Lib(
    isObjectId: Json -> bool,          // mongodb ObjectId.isValid on a present, non-null value
    hashPassword: string -> string,    // sha256(password + PASSWORD_SECRET)
    isEmail: string -> bool,           // validator.js isEmail
    isIso8601: string -> bool,         // validator.js isISO8601 (strict, strict separator)
    isSymbol: char -> bool,            // validator.js isStrongPassword's symbol class
    parseDate: string -> int           // new Date(s), as a timestamp
  )

  /** `ObjectId.isValid(x)` on a present value: `null` is never valid. */
  predicate IsObjectIdValue(lib: Lib, x: Json) {
    x != JNull && lib.isObjectId(x)
  }

  /** `ObjectId.isValid(value)`, where an absent value (`undefined`) is never valid. */
  predicate IsValidId(lib: Lib, v: Option<Json>) {
    v.Some? && IsObjectIdValue(lib, v.value)
  }
}

=== FILE: query.dfy ===
/**
  A document collection as a sequence in natural (insertion) order, with the
  single-document operations the services use: `findOne`, `insertOne`,
  `updateOne` and `deleteOne` all act on the FIRST document matching the
  filter, and `countDocuments`-style counting.
 */
module Query {
  import opened Wrappers

  /** Position of the first document satisfying `p`. */
  function FindFirst<T>(s: seq<T>, p: T -> bool): (r: Option<nat>)
    ensures r.Some? ==> r.value < |s| && p(s[r.value])
    ensures r.Some? ==> forall j :: 0 <= j < r.value ==> !p(s[j])
    ensures r.None? <==> forall j :: 0 <= j < |s| ==> !p(s[j])
  {
    if |s| == 0 then None
    else if p(s[0]) then Some(0)
    else match FindFirst(s[1..], p)
      case None => None
      case Some(i) => Some(i + 1)
  }

  /** `findOne(filter)`: the first matching document, if any. */
  function FindOne<T>(s: seq<T>, p: T -> bool): (r: Option<T>)
    ensures r.Some? <==> exists j :: 0 <= j < |s| && p(s[j])
    ensures r.Some? ==> p(r.value) && r.value in s
  {
    match FindFirst(s, p)
    case None => None
    case Some(i) => Some(s[i])
  }

  /**
    `updateOne(filter, f)`: the first matching document is replaced by its
    image under `f`; every other document, and the order, is unchanged.
   */
  function UpdateOne<T>(s: seq<T>, p: T -> bool, f: T -> T): (r: seq<T>)
    ensures |r| == |s|
    ensures FindFirst(s, p).None? ==> r == s
    ensures FindFirst(s, p).Some? ==>
              var i := FindFirst(s, p).value;
              r[i] == f(s[i]) && forall j :: 0 <= j < |s| && j != i ==> r[j] == s[j]
  {
    match FindFirst(s, p)
    case None => s
    case Some(i) => s[i := f(s[i])]
  }

  /** Number of documents satisfying `p`. */
  function Count<T>(s: seq<T>, p: T -> bool): (n: nat)
    ensures n <= |s|
    ensures n == 0 <==> forall j :: 0 <= j < |s| ==> !p(s[j])
  {
    if |s| == 0 then 0 else (if p(s[0]) then 1 else 0) + Count(s[1..], p)
  }

  /**
    `deleteOne(filter)`: removes exactly the first matching document, if any;
    the remaining documents keep their order.
   */
  function DeleteOne<T>(s: seq<T>, p: T -> bool): (r: seq<T>)
    ensures FindFirst(s, p).None? ==> r == s
    ensures FindFirst(s, p).Some? ==>
              var i := FindFirst(s, p).value;
              |r| == |s| - 1 && multiset(r) + multiset{s[i]} == multiset(s)
              && r[..i] == s[..i] && r[i..] == s[i + 1..]
  {
    match FindFirst(s, p)
    case None => s
    case Some(i) =>
      assert s == s[..i] + [s[i]] + s[i + 1..];
      s[..i] + s[i + 1..]
  }

  /** Counting over a concatenation adds up. */
  lemma {:induction false} CountAppend<T>(a: seq<T>, b: seq<T>, p: T -> bool)
    ensures Count(a + b, p) == Count(a, p) + Count(b, p)
  {
    if |a| > 0 {
      assert (a + b)[1..] == a[1..] + b;
      CountAppend(a[1..], b, p);
    } else {
      assert a + b == b;
    }
  }

  /** Deleting the first match of `p` lowers the number of matches of `p` by exactly one. */
  lemma DeleteOneCount<T>(s: seq<T>, p: T -> bool)
    requires FindFirst(s, p).Some?
    ensures Count(DeleteOne(s, p), p) == Count(s, p) - 1
  {
    var i := FindFirst(s, p).value;
    var a, b := s[..i], s[i + 1..];
    assert DeleteOne(s, p) == a + b;
    SliceAround(s, i);
    CountSplice(a, s[i], b, p);
  }

  lemma SliceAround<T>(s: seq<T>, i: nat)
    requires i < |s|
    ensures s == s[..i] + ([s[i]] + s[i + 1..])
  {
  }

  /** One matching element between two runs adds exactly one to the count. */
  lemma CountSplice<T>(a: seq<T>, x: T, b: seq<T>, p: T -> bool)
    requires p(x)
    ensures Count(a + ([x] + b), p) == Count(a + b, p) + 1
  {
    CountAppend(a, [x] + b, p);
    assert ([x] + b)[1..] == b;
    CountAppend(a, b, p);
  }
}

=== FILE: schemas.dfy ===
/**
  The stored documents and the database they live in. Each collection is a
  sequence in natural (insertion) order; an ObjectId is its hexadecimal
  string. Fields no modelled operation reads or writes are left out.
 */
module Schemas {
  import opened Wrappers
  import opened Js
  import opened Enums

  type ObjectId = string

  datatype User = User(
    id: ObjectId,
    name: string,
    email: string,
    password: string,              // hashPassword of the registered password
    dateOfBirth: int,
    emailVerifyToken: string,      // '' once the email is verified
    forgotPasswordToken: string,
    verify: UserVerifyStatus,
    twitterCircle: seq<ObjectId>,
    createdAt: int,
    updatedAt: int
  )

  datatype RefreshTokenDoc = RefreshTokenDoc(userId: ObjectId, token: string)

  datatype Hashtag = Hashtag(id: ObjectId, name: string, createdAt: int)

  datatype Tweet = Tweet(
    id: ObjectId,
    userId: ObjectId,
    kind: TweetType,
    audience: TweetAudience,
    content: string,
    parentId: Option<ObjectId>,    // None for an original tweet
    hashtags: seq<ObjectId>,
    mentions: seq<ObjectId>,
    medias: seq<Json>
  )

  datatype Bookmark = Bookmark(userId: ObjectId, tweetId: ObjectId)

  datatype Like = Like(userId: ObjectId, tweetId: ObjectId)

  datatype Db = Db(
    users: seq<User>,
    refreshTokens: seq<RefreshTokenDoc>,
    tweets: seq<Tweet>,
    hashtags: seq<Hashtag>,
    bookmarks: seq<Bookmark>,
    likes: seq<Like>
  )

  /** No two users share an `_id`. */
  predicate UniqueUserIds(users: seq<User>) {
    forall i, j :: 0 <= i < j < |users| ==> users[i].id != users[j].id
  }
}

=== FILE: text.dfy ===
/**
  The string operations the request rules use: JavaScript's whitespace
  trimming (`String.prototype.trim` and validator.js `trim`, which strip the
  same set of characters), `startsWith`, `split(' ')`, lodash `capitalize`,
  and the ASCII character classes of the password and username rules.
 */
module Text {

  /** JavaScript's WhiteSpace and LineTerminator characters (the `\s` class). */
  predicate IsWhitespace(c: char) {
    || c == '\t' || c == '\n' || c == '\U{000B}' || c == '\U{000C}' || c == '\r'
    || c == ' ' || c == '\U{00A0}' || c == '\U{1680}'
    || ('\U{2000}' <= c <= '\U{200A}')
    || c == '\U{2028}' || c == '\U{2029}' || c == '\U{202F}' || c == '\U{205F}'
    || c == '\U{3000}' || c == '\U{FEFF}'
  }

  predicate IsLower(c: char) { 'a' <= c <= 'z' }
  predicate IsUpper(c: char) { 'A' <= c <= 'Z' }
  predicate IsDigit(c: char) { '0' <= c <= '9' }

  predicate AllWhitespace(s: string) {
    forall i :: 0 <= i < |s| ==> IsWhitespace(s[i])
  }

  /** Length of the longest whitespace-only prefix of `s`. */
  function LeadingBlanks(s: string): (n: nat)
    ensures n <= |s| && AllWhitespace(s[..n])
    ensures n == |s| || !IsWhitespace(s[n])
  {
    if |s| > 0 && IsWhitespace(s[0]) then
      var m := LeadingBlanks(s[1..]);
      assert s[..m + 1] == [s[0]] + s[1..][..m];
      m + 1
    else 0
  }

  /** Leading whitespace removed. */
  function TrimStart(s: string): (r: string)
    ensures r == s[LeadingBlanks(s)..]
    ensures r == [] || !IsWhitespace(r[0])
  {
    s[LeadingBlanks(s)..]
  }

  /** Trailing whitespace removed: the result is a prefix of `s`, and what was cut is whitespace. */
  function TrimEnd(s: string): (r: string)
    ensures |r| <= |s| && r == s[..|r|]
    ensures AllWhitespace(s[|r|..])
    ensures r == [] || !IsWhitespace(r[|r| - 1])
  {
    if |s| > 0 && IsWhitespace(s[|s| - 1]) then
      var r := TrimEnd(s[..|s| - 1]);
      assert s[|r|..] == s[..|s| - 1][|r|..] + [s[|s| - 1]];
      r
    else s
  }

  /**
    `s.trim()`: the slice of `s` after its leading whitespace, followed in
    `s` by whitespace only, with no whitespace at either end.
   */
  function Trim(s: string): (r: string)
    ensures LeadingBlanks(s) + |r| <= |s| && r == s[LeadingBlanks(s)..LeadingBlanks(s) + |r|]
    ensures AllWhitespace(s[LeadingBlanks(s) + |r|..])
    ensures r == [] || (!IsWhitespace(r[0]) && !IsWhitespace(r[|r| - 1]))
  {
    var i := LeadingBlanks(s);
    var a := s[i..];
    var r := TrimEnd(a);
    assert s[i + |r|..] == a[|r|..];
    assert r == [] || r[0] == a[0];
    r
  }

  /** Trimming twice is trimming once. */
  lemma TrimIdempotent(s: string)
    ensures Trim(Trim(s)) == Trim(s)
  {
    var t := Trim(s);
    TrimUntouched(t);
  }

  /** A string with no whitespace at either end is its own trim. */
  lemma TrimUntouched(t: string)
    requires t == [] || (!IsWhitespace(t[0]) && !IsWhitespace(t[|t| - 1]))
    ensures Trim(t) == t
  {
    assert LeadingBlanks(t) == 0;
    assert t[0..] == t;
    assert TrimEnd(t) == t;
  }

  /** `s.trim() === ''` exactly when `s` holds nothing but whitespace. */
  lemma TrimEmptyIffBlank(s: string)
    ensures Trim(s) == "" <==> AllWhitespace(s)
  {
    var i := LeadingBlanks(s);
    if Trim(s) == "" {
      assert i == |s|;
      assert s[..i] == s;
    }
  }

  /** The variation selectors U+FE0E and U+FE0F, which validator.js `isLength` does not count. */
  predicate IsPresentationSelector(c: char) {
    c == '\U{FE0E}' || c == '\U{FE0F}'
  }

  /**
    The length validator.js `isLength` compares with its bounds: every code
    point except the two variation selectors.
   */
  function VisibleLength(s: string): (n: nat)
    ensures n <= |s|
    ensures n == |s| <==> forall i :: 0 <= i < |s| ==> !IsPresentationSelector(s[i])
  {
    if |s| == 0 then 0
    else
      var rest := VisibleLength(s[1..]);
      assert forall i :: 1 <= i < |s| ==> s[i] == s[1..][i - 1];
      (if IsPresentationSelector(s[0]) then 0 else 1) + rest
  }

  /** JavaScript's `s.length`: UTF-16 code units, two for a code point above U+FFFF. */
  function Utf16Length(s: string): (n: nat)
    ensures |s| <= n <= 2 * |s|
    ensures n == |s| <==> forall i :: 0 <= i < |s| ==> s[i] as int <= 0xFFFF
  {
    if |s| == 0 then 0
    else
      var rest := Utf16Length(s[1..]);
      assert forall i :: 1 <= i < |s| ==> s[i] == s[1..][i - 1];
      (if s[0] as int > 0xFFFF then 2 else 1) + rest
  }

  predicate StartsWith(s: string, prefix: string) {
    |prefix| <= |s| && s[..|prefix|] == prefix
  }

  /** Index of the first `c` in `s`, or `|s|` when there is none. */
  function IndexOf(s: string, c: char): (i: nat)
    ensures i <= |s|
    ensures i < |s| ==> s[i] == c
    ensures forall j :: 0 <= j < i ==> s[j] != c
  {
    if |s| == 0 then 0
    else if s[0] == c then 0
    else 1 + IndexOf(s[1..], c)
  }

  /** `s.split(sep)` for a one-character separator: never empty, no part contains `sep`. */
  function Split(s: string, sep: char): (parts: seq<string>)
    ensures |parts| >= 1
    ensures forall k :: 0 <= k < |parts| ==> sep !in parts[k]
    decreases |s|
  {
    var i := IndexOf(s, sep);
    if i == |s| then [s] else [s[..i]] + Split(s[i + 1..], sep)
  }

  function Join(parts: seq<string>, sep: char): string
    requires |parts| >= 1
  {
    if |parts| == 1 then parts[0] else parts[0] + [sep] + Join(parts[1..], sep)
  }

  /** Splitting and joining back with the same separator gives the original string. */
  lemma {:induction false} SplitJoin(s: string, sep: char)
    ensures Join(Split(s, sep), sep) == s
    decreases |s|
  {
    var i := IndexOf(s, sep);
    if i < |s| {
      var rest := s[i + 1..];
      var parts := Split(rest, sep);
      SplitCons(s, sep);
      SplitJoin(rest, sep);
      JoinCons(s[..i], parts, sep);
      calc {
        Join(Split(s, sep), sep);
        Join([s[..i]] + parts, sep);
        s[..i] + [sep] + Join(parts, sep);
        s[..i] + [s[i]] + s[i + 1..];
        { assert s[..i] + [s[i]] == s[..i + 1]; }
        s;
      }
    }
  }

  lemma SplitCons(s: string, sep: char)
    requires IndexOf(s, sep) < |s|
    ensures Split(s, sep) == [s[..IndexOf(s, sep)]] + Split(s[IndexOf(s, sep) + 1..], sep)
  {
  }

  lemma JoinCons(first: string, rest: seq<string>, sep: char)
    requires |rest| >= 1
    ensures Join([first] + rest, sep) == first + [sep] + Join(rest, sep)
  {
    assert ([first] + rest)[1..] == rest;
  }

  function ToUpperAscii(c: char): char {
    if IsLower(c) then (c as int - 32) as char else c
  }

  function ToLowerAscii(c: char): char {
    if IsUpper(c) then (c as int + 32) as char else c
  }

  /** lodash `capitalize`: first character upper case, the rest lower case (ASCII letters only). */
  function Capitalize(s: string): (r: string)
    ensures |r| == |s|
    ensures |s| > 0 ==> r[0] == ToUpperAscii(s[0])
    ensures forall i :: 1 <= i < |s| ==> r[i] == ToLowerAscii(s[i])
  {
    if |s| == 0 then "" else [ToUpperAscii(s[0])] + seq(|s| - 1, i requires 0 <= i < |s| - 1 => ToLowerAscii(s[i + 1]))
  }
}

=== FILE: tweets_access.dfy ===
/**
  Reading one tweet: `tweetIdValidator` looks the tweet up and counts its
  bookmarks, likes and child tweets by type; `audienceValidator` decides
  whether the viewer may see a Twitter-circle tweet.
 */
module TweetsAccess {
  import opened Wrappers
  import opened Js
  import opened Errors
  import opened Enums
  import opened Library
  import opened Validation
  import Schemas
  import UsersService
  import Query

  /** The tweets whose `parent_id` is `id`, in store order (the `tweet_children` lookup). */
  function Children(tweets: seq<Schemas.Tweet>, id: Schemas.ObjectId): (r: seq<Schemas.Tweet>)
    ensures |r| <= |tweets|
    ensures forall k :: 0 <= k < |r| ==> r[k].parentId == Some(id) && r[k] in tweets
    ensures forall j :: 0 <= j < |tweets| && tweets[j].parentId == Some(id) ==> tweets[j] in r
  {
    if |tweets| == 0 then []
    else
      var rest := Children(tweets[1..], id);
      assert forall j :: 1 <= j < |tweets| ==> tweets[j] == tweets[1..][j - 1];
      if tweets[0].parentId == Some(id) then [tweets[0]] + rest else rest
  }

  function OfKind(k: TweetType): Schemas.Tweet -> bool {
    (t: Schemas.Tweet) => t.kind == k
  }

  function ChildOfKind(id: Schemas.ObjectId, k: TweetType): Schemas.Tweet -> bool {
    (t: Schemas.Tweet) => t.parentId == Some(id) && t.kind == k
  }

  /** Counting a type among the children is counting the store's tweets with that parent and type. */
  lemma {:induction false} ChildCountIsStoreCount(tweets: seq<Schemas.Tweet>, id: Schemas.ObjectId, k: TweetType)
    ensures Query.Count(Children(tweets, id), OfKind(k)) == Query.Count(tweets, ChildOfKind(id, k))
  {
    if |tweets| > 0 {
      ChildCountIsStoreCount(tweets[1..], id, k);
      if tweets[0].parentId == Some(id) {
        var rest := Children(tweets[1..], id);
        assert ([tweets[0]] + rest)[1..] == rest;
      }
    }
  }

  /** Tweets of the three child types number at most the tweets counted. */
  lemma {:induction false} KindCountsBounded(s: seq<Schemas.Tweet>)
    ensures Query.Count(s, OfKind(Retweet)) + Query.Count(s, OfKind(Comment)) + Query.Count(s, OfKind(QuoteTweet)) <= |s|
  {
    if |s| > 0 {
      KindCountsBounded(s[1..]);
    }
  }

  /** The bookmark records naming tweet `id` (the `bookmarks` lookup). */
  function BookmarksOf(id: Schemas.ObjectId): Schemas.Bookmark -> bool {
    (b: Schemas.Bookmark) => b.tweetId == id
  }

  /** The like records naming tweet `id` (the `likes` lookup). */
  function LikesOf(id: Schemas.ObjectId): Schemas.Like -> bool {
    (l: Schemas.Like) => l.tweetId == id
  }

  /** The tweet as `tweetIdValidator` attaches it: the document plus its counts. */
  datatype TweetView = TweetView(
    tweet: Schemas.Tweet,
    bookmarks: nat,
    likes: nat,
    retweetCount: nat,
    commentCount: nat,
    quoteCount: nat)

  /**
    The aggregation for one tweet: bookmarks and likes are the records
    naming it, and each child count is the number of tweets with it as
    parent and exactly that type, so the three never exceed the children.
   */
  function Aggregate(db: Schemas.Db, tweet: Schemas.Tweet): (v: TweetView)
    ensures v.tweet == tweet
    ensures v.retweetCount == Query.Count(db.tweets, ChildOfKind(tweet.id, Retweet))
    ensures v.commentCount == Query.Count(db.tweets, ChildOfKind(tweet.id, Comment))
    ensures v.quoteCount == Query.Count(db.tweets, ChildOfKind(tweet.id, QuoteTweet))
    ensures v.retweetCount + v.commentCount + v.quoteCount <= |Children(db.tweets, tweet.id)|
    ensures v.bookmarks == Query.Count(db.bookmarks, BookmarksOf(tweet.id))
    ensures v.likes == Query.Count(db.likes, LikesOf(tweet.id))
    ensures v.bookmarks == 0 <==> forall j :: 0 <= j < |db.bookmarks| ==> db.bookmarks[j].tweetId != tweet.id
    ensures v.likes == 0 <==> forall j :: 0 <= j < |db.likes| ==> db.likes[j].tweetId != tweet.id
    ensures v.bookmarks <= |db.bookmarks| && v.likes <= |db.likes|
  {
    var children := Children(db.tweets, tweet.id);
    ChildCountIsStoreCount(db.tweets, tweet.id, Retweet);
    ChildCountIsStoreCount(db.tweets, tweet.id, Comment);
    ChildCountIsStoreCount(db.tweets, tweet.id, QuoteTweet);
    KindCountsBounded(children);
    var bookmarks := Query.Count(db.bookmarks, BookmarksOf(tweet.id));
    var likes := Query.Count(db.likes, LikesOf(tweet.id));
    assert forall j :: 0 <= j < |db.bookmarks| ==> (BookmarksOf(tweet.id)(db.bookmarks[j]) <==> db.bookmarks[j].tweetId == tweet.id);
    assert forall j :: 0 <= j < |db.likes| ==> (LikesOf(tweet.id)(db.likes[j]) <==> db.likes[j].tweetId == tweet.id);
    TweetView(
      tweet,
      bookmarks,
      likes,
      Query.Count(children, OfKind(Retweet)),
      Query.Count(children, OfKind(Comment)),
      Query.Count(children, OfKind(QuoteTweet)))
  }

  function TweetById(id: Schemas.ObjectId): Schemas.Tweet -> bool {
    (t: Schemas.Tweet) => t.id == id
  }

  /**
    `tweetIdValidator` on the `tweet_id` route parameter: a malformed id is
    forwarded as 400 TWEET_ID_INVALID before any lookup; a well-formed id
    no tweet has is forwarded as 404 TWEET_NOT_FOUND; otherwise the request
    goes on with the tweet and its counts attached.
   */
  function TweetIdValidator(db: Schemas.Db, tweetId: string, lib: Lib): (r: (Outcome, Option<TweetView>))
    ensures !lib.isObjectId(JStr(tweetId)) ==> r == (Forward(ErrorWithStatus(BAD_REQUEST, TweetIdInvalid)), None)
    ensures lib.isObjectId(JStr(tweetId)) && (forall j :: 0 <= j < |db.tweets| ==> db.tweets[j].id != tweetId) ==>
              r == (Forward(ErrorWithStatus(NOT_FOUND, TweetNotFound)), None)
    ensures r.0.Proceed? <==> lib.isObjectId(JStr(tweetId)) && exists j :: 0 <= j < |db.tweets| && db.tweets[j].id == tweetId
    ensures r.0.Proceed? ==> r.1.Some? && r.1.value.tweet.id == tweetId && r.1.value.tweet in db.tweets
                             && r.1.value == Aggregate(db, r.1.value.tweet)
    ensures !r.0.Proceed? ==> r.1.None?
  {
    var found := Query.FindOne(db.tweets, TweetById(tweetId));
    var first :=
      if !lib.isObjectId(JStr(tweetId)) then Some(WithStatus(ErrorWithStatus(BAD_REQUEST, TweetIdInvalid)))
      else if found.None? then Some(WithStatus(ErrorWithStatus(NOT_FOUND, TweetNotFound)))
      else None;
    var outcome := ValidateOne("tweet_id", first);
    (outcome, if outcome.Proceed? then Some(Aggregate(db, found.value)) else None)
  }

  /**
    `audienceValidator`: a tweet for everyone always passes. For a
    Twitter-circle tweet, no signed-in viewer is 401, a missing or banned
    author is 404, and a viewer who is neither the author nor in the
    author's circle is 403 TWEET_NOT_PUBLIC.
   */
  function AudienceValidator(users: seq<Schemas.User>, tweet: Schemas.Tweet, viewer: Option<Schemas.ObjectId>): (r: Result<(), ErrorWithStatus>)
    ensures tweet.audience != TwitterCircle ==> r.Ok?
    ensures tweet.audience == TwitterCircle && viewer.None? ==> r == Err(ErrorWithStatus(UNAUTHORIZED, AccessTokenIsRequired))
    ensures r.Err? && r.error.status == NOT_FOUND ==> r.error.message == UserNotFound
    ensures r.Err? && r.error.status == FORBIDDEN ==> r.error.message == TweetNotPublic
    ensures r.Err? ==> r.error.status in {UNAUTHORIZED, NOT_FOUND, FORBIDDEN}
  {
    if tweet.audience != TwitterCircle then Ok(())
    else if viewer.None? then Err(ErrorWithStatus(UNAUTHORIZED, AccessTokenIsRequired))
    else match Query.FindOne(users, UsersService.ById(tweet.userId))
      case None => Err(ErrorWithStatus(NOT_FOUND, UserNotFound))
      case Some(author) =>
        if author.verify == Banned then Err(ErrorWithStatus(NOT_FOUND, UserNotFound))
        else if author.id != viewer.value && viewer.value !in author.twitterCircle then Err(ErrorWithStatus(FORBIDDEN, TweetNotPublic))
        else Ok(())
  }

  /**
    Who sees a Twitter-circle tweet: a signed-in viewer, when the author
    exists and is not banned, and the viewer is the author or in the
    author's circle. A missing or banned author is 404; any other
    signed-in viewer is 403 TWEET_NOT_PUBLIC.
   */
  lemma AudienceVisibility(users: seq<Schemas.User>, tweet: Schemas.Tweet, viewer: Option<Schemas.ObjectId>)
    requires tweet.audience == TwitterCircle
    ensures var author := Query.FindOne(users, UsersService.ById(tweet.userId));
            AudienceValidator(users, tweet, viewer).Ok? <==>
              && viewer.Some? && author.Some? && author.value.verify != Banned
              && (viewer.value == tweet.userId || viewer.value in author.value.twitterCircle)
    ensures var author := Query.FindOne(users, UsersService.ById(tweet.userId));
            viewer.Some? && (author.None? || author.value.verify == Banned) ==>
              AudienceValidator(users, tweet, viewer) == Err(ErrorWithStatus(NOT_FOUND, UserNotFound))
    ensures var author := Query.FindOne(users, UsersService.ById(tweet.userId));
            && viewer.Some? && author.Some? && author.value.verify != Banned
            && viewer.value != tweet.userId && viewer.value !in author.value.twitterCircle ==>
              AudienceValidator(users, tweet, viewer) == Err(ErrorWithStatus(FORBIDDEN, TweetNotPublic))
  {
    var author := Query.FindOne(users, UsersService.ById(tweet.userId));
    if author.Some? {
      assert UsersService.ById(tweet.userId)(author.value);
    }
  }
}

=== FILE: tweets_rules.dfy ===
/**
  The body rules of `tweetsValidator` in
  src/middlewares/tweets.middleswares.ts, and a corrected variant of them.
  The lookup and counts of `tweetIdValidator` and the visibility decision
  of `audienceValidator` are in `TweetsAccess`.
 */
module TweetsRules {
  import opened Wrappers
  import opened Js
  import opened Text
  import opened Errors
  import opened Enums
  import opened Library
  import opened Validation
  import opened Common
  import Query

  /** `numberEnumToArray(TweetType)` and `numberEnumToArray(TweetAudience)`. */
  const TweetTypes: seq<int> := NumberEnumToArray(EnumObjectValues(TweetTypeNames))
  const TweetAudiences: seq<int> := NumberEnumToArray(EnumObjectValues(TweetAudienceNames))

  lemma EnumArrays()
    ensures TweetTypes == [0, 1, 2, 3]
    ensures TweetAudiences == [0, 1]
  {
    NumberEnumOfEnumObject(TweetTypeNames);
    NumberEnumOfEnumObject(TweetAudienceNames);
    assert Range(0, 4) == [0, 1, 2, 3];
    assert Range(0, 2) == [0, 1];
  }

  function Decimals(cs: seq<int>): (ds: seq<string>)
    ensures |ds| == |cs| && forall i :: 0 <= i < |cs| ==> ds[i] == IntToDecimal(cs[i])
  {
    seq(|cs|, i requires 0 <= i < |cs| => IntToDecimal(cs[i]))
  }

  /**
    validator.js `isIn` with an array of numbers, applied the express-validator
    way: the value's string form must equal one option's string form.
   */
  predicate IsIn(v: Option<Json>, options: seq<int>) {
    StandardCheck(v, (s: string) => s in Decimals(options))
  }

  /** A single string passes `isIn` exactly when it is one of the options' decimal forms. */
  lemma IsInString(s: string, options: seq<int>)
    ensures IsIn(Some(JStr(s)), options) <==> s in Decimals(options)
  {
  }

  /** A single number passes `isIn` exactly when its decimal form is one of the options'. */
  lemma IsInNumber(n: int, options: seq<int>)
    ensures IsIn(Some(JNum(n)), options) <==> IntToDecimal(n) in Decimals(options)
  {
  }

  /** The decimal forms of the enum codes are their one-digit strings. */
  lemma DigitsOfCodes(n: int, k: int)
    requires 0 <= k < 10
    ensures IntToDecimal(n) == [Digit(k)] <==> n == k
  {
    if IntToDecimal(n) == [Digit(k)] {
      assert 0 <= n < 10;
      var digits := ['0', '1', '2', '3', '4', '5', '6', '7', '8', '9'];
      assert Digit(n) == digits[n] && Digit(k) == digits[k];
    }
  }

  /** A JSON number passes the `type` rule exactly when it is one of TweetType's codes. */
  lemma TypeNumberIsIn(n: int)
    ensures IsIn(Some(JNum(n)), TweetTypes) <==> 0 <= n < 4
  {
    EnumArrays();
    var ds := Decimals(TweetTypes);
    assert ds == [[Digit(0)], [Digit(1)], [Digit(2)], [Digit(3)]];
    DigitsOfCodes(n, 0);
    DigitsOfCodes(n, 1);
    DigitsOfCodes(n, 2);
    DigitsOfCodes(n, 3);
  }

  /** `isIn(tweetAudiences)` accepts a JSON number exactly when it is 0 or 1. */
  lemma AudienceNumberIsIn(n: int)
    ensures IsIn(Some(JNum(n)), TweetAudiences) <==> 0 <= n < 2
  {
    EnumArrays();
    var ds := Decimals(TweetAudiences);
    assert ds == [[Digit(0)], [Digit(1)]];
    DigitsOfCodes(n, 0);
    DigitsOfCodes(n, 1);
  }

  /** A type the custom rules recognise also passes `isIn`. */
  lemma StrictTypeIsIn(v: Option<Json>)
    ensures StrictType(v).Some? ==> IsIn(v, TweetTypes)
  {
    if v.Some? && v.value.JNum? {
      TypeNumberIsIn(v.value.n);
    }
  }

  /** The tweet type the custom rules recognise: `includes`/`===` match only a JSON number. */
  function StrictType(v: Option<Json>): (k: Option<TweetType>)
    ensures k.Some? <==> v.Some? && v.value.JNum? && 0 <= v.value.n < 4
    ensures k.Some? ==> k.value.Code() == v.value.n
  {
    if v.Some? && v.value.JNum? && 0 <= v.value.n < 4 then Some(TweetTypeOfCode(v.value.n)) else None
  }

  /** The `type` field: `isIn(tweetTypes)`. */
  function TypeRule(v: Option<Json>): (r: Option<ErrorMsg>)
    ensures r.None? <==> IsIn(v, TweetTypes)
    ensures r.Some? ==> r == Some(Plain(TweetTypeInvalid))
  {
    if IsIn(v, TweetTypes) then None else Some(Plain(TweetTypeInvalid))
  }

  /** The `audience` field: `isIn(tweetAudiences)`. */
  function AudienceRule(v: Option<Json>): (r: Option<ErrorMsg>)
    ensures r.None? <==> IsIn(v, TweetAudiences)
    ensures r.Some? ==> r == Some(Plain(TweetAudienceInvalid))
  {
    if IsIn(v, TweetAudiences) then None else Some(Plain(TweetAudienceInvalid))
  }

  /**
    The `parent_id` rule for the recognised type `kind`: a retweet, comment
    or quote tweet needs a valid ObjectId, an original tweet needs exactly
    `null` (a missing field is not `null`), and nothing is required when the
    type is not recognised.
   */
  function ParentRule(kind: Option<TweetType>, parent: Option<Json>, lib: Lib): (r: Option<ErrorMsg>)
    ensures r.None? <==> (kind.Some? && kind.value != Tweet ==> IsValidId(lib, parent))
                         && (kind == Some(Tweet) ==> parent == Some(JNull))
    ensures r.Some? ==> r.value.Plain?
  {
    if kind.Some? && kind.value != Tweet && !IsValidId(lib, parent) then Some(Plain(ParentIdMustBeValidTweetId))
    else if kind == Some(Tweet) && parent != Some(JNull) then Some(Plain(ParentIdMustBeNull))
    else None
  }

  /** `ObjectId.isValid(null)` is false, so a retweet, comment or quote tweet with a `null` parent is rejected. */
  lemma NullParentRejected(kind: TweetType, lib: Lib)
    requires kind != Tweet
    ensures ParentRule(Some(kind), Some(JNull), lib) == Some(Plain(ParentIdMustBeValidTweetId))
  {
    assert !IsValidId(lib, Some(JNull));
  }

  /**
    The `content` chain: isString, trim, then the rule for the recognised
    type: a retweet's content must be blank, and a comment, quote tweet or
    tweet without mentions and hashtags must not be.
   */
  function ContentRule(kind: Option<TweetType>, content: Option<Json>, hashtags: Option<Json>, mentions: Option<Json>): (r: Option<ErrorMsg>)
    ensures r.None? <==> && content.Some? && content.value.JStr?
                         && (kind == Some(Retweet) ==> Trim(content.value.s) == "")
                         && ((kind.Some? && kind.value != Retweet && HasNoItems(mentions) && HasNoItems(hashtags))
                               ==> Trim(content.value.s) != "")
    ensures r.Some? ==> r.value.Plain?
  {
    if !(content.Some? && content.value.JStr?) then Some(Plain(TweetContentMustBeString))
    else
      var value := Trim(content.value.s);
      TrimIdempotent(content.value.s);
      if kind == Some(Retweet) && Trim(value) != "" then Some(Plain(TweetContentMustBeString))
      else if kind.Some? && kind.value != Retweet && HasNoItems(mentions) && HasNoItems(hashtags) && Trim(value) == "" then
        Some(Plain(TweetContentCannotBeEmpty))
      else None
  }

  /**
    `mentions.length === 0` holds for an object whose `length` is 0, so an
    original tweet with empty content, no hashtags and such `mentions` is
    refused for its content too.
   */
  lemma LengthZeroObjectHasNoItems()
    ensures ContentRule(Some(Tweet), Some(JStr("")), Some(JArr([])), Some(JObj(map["length" := JNum(0)])))
              == Some(Plain(TweetContentCannotBeEmpty))
  {
    assert HasNoItems(Some(JObj(map["length" := JNum(0)])));
  }

  /** The `hashtags` field: an array of strings. */
  function HashtagsRule(v: Option<Json>): (r: Option<ErrorMsg>)
    ensures r.None? <==> v.Some? && v.value.JArr? && forall i :: 0 <= i < |v.value.items| ==> v.value.items[i].JStr?
    ensures r.Some? ==> r.value.Plain?
  {
    if !(v.Some? && v.value.JArr?) then Some(Plain(TweetHashtagsMustBeArray))
    else if !(forall i :: 0 <= i < |v.value.items| ==> v.value.items[i].JStr?) then Some(Plain(TweetHashtagsMustBeArrayOfString))
    else None
  }

  /** The `mentions` field: an array of valid ObjectIds. */
  function MentionsRule(v: Option<Json>, lib: Lib): (r: Option<ErrorMsg>)
    ensures r.None? <==> v.Some? && v.value.JArr? && forall i :: 0 <= i < |v.value.items| ==> IsObjectIdValue(lib, v.value.items[i])
    ensures r.Some? ==> r.value.Plain?
  {
    if !(v.Some? && v.value.JArr?) then Some(Plain(TweetMentionsMustBeArray))
    else if !(forall i :: 0 <= i < |v.value.items| ==> IsObjectIdValue(lib, v.value.items[i])) then Some(Plain(TweetMentionsMustBeArrayOfUserId))
    else None
  }

  /** `typeof item === 'object' && 'url' in item && 'type' in item`. */
  predicate IsMediaObject(x: Json) {
    x.JObj? && "url" in x.fields && "type" in x.fields
  }

  /** The `TypeError` JavaScript raises for `'url' in null`. */
  const InOperatorOnNull := "Cannot use 'in' operator to search for 'url' in null"

  /**
    The `medias` field: an array of media objects. `every` stops at the
    first item that is not one; a `null` there makes the `in` test throw,
    and the thrown `TypeError` becomes the message.
   */
  function MediasRule(v: Option<Json>): (r: Option<ErrorMsg>)
    ensures r.None? <==> v.Some? && v.value.JArr? && forall i :: 0 <= i < |v.value.items| ==> IsMediaObject(v.value.items[i])
    ensures r.Some? ==> r.value.Plain?
    ensures r == Some(Plain(Custom(InOperatorOnNull))) ==> v.Some? && v.value.JArr? && JNull in v.value.items
  {
    if !(v.Some? && v.value.JArr?) then Some(Plain(TweetMediasMustBeArray))
    else match Query.FindFirst(v.value.items, (x: Json) => !IsMediaObject(x))
      case None => None
      case Some(i) =>
        if v.value.items[i] == JNull then Some(Plain(Custom(InOperatorOnNull)))
        else Some(Plain(TweetMediasMustBeArrayOfMediaObject))
  }

  /** The fields of `tweetsValidator`'s schema, in order, with their first errors. */
  function TweetsSchema(kind: Option<ErrorMsg>, audience: Option<ErrorMsg>, parent: Option<ErrorMsg>, content: Option<ErrorMsg>,
                        hashtags: Option<ErrorMsg>, mentions: Option<ErrorMsg>, medias: Option<ErrorMsg>): seq<(string, Option<ErrorMsg>)> {
    [("type", kind), ("audience", audience), ("parent_id", parent), ("content", content),
     ("hashtags", hashtags), ("mentions", mentions), ("medias", medias)]
  }

  /** A tweet schema run answers 422 with the failing fields, or lets the request through. */
  lemma TweetsSchemaOutcome(kind: Option<ErrorMsg>, audience: Option<ErrorMsg>, parent: Option<ErrorMsg>, content: Option<ErrorMsg>,
                            hashtags: Option<ErrorMsg>, mentions: Option<ErrorMsg>, medias: Option<ErrorMsg>)
    requires kind.None? || kind.value.Plain?
    requires audience.None? || audience.value.Plain?
    requires parent.None? || parent.value.Plain?
    requires content.None? || content.value.Plain?
    requires hashtags.None? || hashtags.value.Plain?
    requires mentions.None? || mentions.value.Plain?
    requires medias.None? || medias.value.Plain?
    ensures !Validate(Collect(TweetsSchema(kind, audience, parent, content, hashtags, mentions, medias))).Forward?
    ensures Validate(Collect(TweetsSchema(kind, audience, parent, content, hashtags, mentions, medias))).Proceed? <==>
              kind.None? && audience.None? && parent.None? && content.None? && hashtags.None? && mentions.None? && medias.None?
  {
    var fields := TweetsSchema(kind, audience, parent, content, hashtags, mentions, medias);
    assert fields[0].1 == kind && fields[1].1 == audience && fields[2].1 == parent && fields[3].1 == content;
    assert fields[4].1 == hashtags && fields[5].1 == mentions && fields[6].1 == medias;
    PlainErrorsNeverForward(fields);
    if kind.None? && audience.None? && parent.None? && content.None? && hashtags.None? && mentions.None? && medias.None? {
      forall i | 0 <= i < |fields| ensures fields[i].1.None? {
        if i == 0 {} else if i == 1 {} else if i == 2 {} else if i == 3 {} else if i == 4 {} else if i == 5 {} else {}
      }
    }
  }

  /**
    `tweetsValidator` as written: `type` is checked with `isIn`, which
    compares string forms, while the parent and content rules recognise
    the type only as a JSON number.
   */
  function TweetsValidator(body: map<string, Json>, lib: Lib): Outcome {
    var kind := StrictType(Get(body, "type"));
    Validate(Collect(TweetsSchema(
      TypeRule(Get(body, "type")),
      AudienceRule(Get(body, "audience")),
      ParentRule(kind, Get(body, "parent_id"), lib),
      ContentRule(kind, Get(body, "content"), Get(body, "hashtags"), Get(body, "mentions")),
      HashtagsRule(Get(body, "hashtags")),
      MentionsRule(Get(body, "mentions"), lib),
      MediasRule(Get(body, "medias")))))
  }

  /** The array fields are arrays of strings, of valid ObjectIds and of media objects. */
  predicate ArraysWellFormed(body: map<string, Json>, lib: Lib) {
    && HashtagsRule(Get(body, "hashtags")).None?
    && MentionsRule(Get(body, "mentions"), lib).None?
    && MediasRule(Get(body, "medias")).None?
  }

  /**
    The tweet body's parent and content agree with its type `k`: a reply
    or retweet names a valid parent, an original tweet has parent `null`,
    a retweet's content is blank, and other tweets without hashtags and
    mentions have non-blank content.
   */
  predicate ConsistentWithType(body: map<string, Json>, k: TweetType, lib: Lib) {
    && (k != Tweet ==> IsValidId(lib, Get(body, "parent_id")))
    && (k == Tweet ==> Get(body, "parent_id") == Some(JNull))
    && "content" in body && body["content"].JStr?
    && (k == Retweet ==> Trim(body["content"].s) == "")
    && (k != Retweet && HasNoItems(Get(body, "mentions")) && HasNoItems(Get(body, "hashtags")) ==> Trim(body["content"].s) != "")
  }

  /**
    What `tweetsValidator` admits, as written: the type and audience pass
    `isIn`, the array fields are well formed, content is a string, and the
    type rules hold for the type when it is a JSON number.
   */
  lemma TweetsValidatorSpec(body: map<string, Json>, lib: Lib)
    ensures !TweetsValidator(body, lib).Forward?
    ensures TweetsValidator(body, lib).Proceed? <==>
              && IsIn(Get(body, "type"), TweetTypes) && IsIn(Get(body, "audience"), TweetAudiences)
              && ArraysWellFormed(body, lib)
              && "content" in body && body["content"].JStr?
              && (StrictType(Get(body, "type")).Some? ==> ConsistentWithType(body, StrictType(Get(body, "type")).value, lib))
  {
    var kind := StrictType(Get(body, "type"));
    TweetsSchemaOutcome(
      TypeRule(Get(body, "type")),
      AudienceRule(Get(body, "audience")),
      ParentRule(kind, Get(body, "parent_id"), lib),
      ContentRule(kind, Get(body, "content"), Get(body, "hashtags"), Get(body, "mentions")),
      HashtagsRule(Get(body, "hashtags")),
      MentionsRule(Get(body, "mentions"), lib),
      MediasRule(Get(body, "medias")));
  }

  /**
    A retweet whose type is sent as the string "1": audience 0, content
    "hello", empty hashtags, mentions and medias, and no `parent_id`.
   */
  predicate StringTypedRetweet(body: map<string, Json>) {
    && Get(body, "type") == Some(JStr("1")) && Get(body, "audience") == Some(JNum(0))
    && Get(body, "content") == Some(JStr("hello")) && Get(body, "parent_id") == None
    && Get(body, "hashtags") == Some(JArr([])) && Get(body, "mentions") == Some(JArr([]))
    && Get(body, "medias") == Some(JArr([]))
  }

  /** The request body that exhibits it. */
  function RetweetTypedAsString(): (body: map<string, Json>)
    ensures StringTypedRetweet(body)
  {
    map["type" := JStr("1"), "audience" := JNum(0), "content" := JStr("hello"),
        "hashtags" := JArr([]), "mentions" := JArr([]), "medias" := JArr([])]
  }

  /**
    As written, a retweet whose type is sent as the string "1" passes with
    non-blank content and no `parent_id`, which the rules for a retweet
    forbid: `isIn` accepts "1", but `[Retweet, ...].includes("1")` and
    `"1" === TweetType.Retweet` are false, so both type rules are skipped.
   */
  lemma StringTypeSkipsTypeRules(body: map<string, Json>, lib: Lib)
    requires StringTypedRetweet(body)
    ensures TweetsValidator(body, lib).Proceed?
    ensures !ConsistentWithType(body, Retweet, lib)
  {
    StringTypePassesIsIn(body);
    StringTypeOtherFieldsPass(body, lib);
    RulesPassProceeds(body, lib);
  }

  /** When every field rule passes, the request goes through. */
  lemma RulesPassProceeds(body: map<string, Json>, lib: Lib)
    requires TypeRule(Get(body, "type")) == None && AudienceRule(Get(body, "audience")) == None
    requires ParentRule(StrictType(Get(body, "type")), Get(body, "parent_id"), lib) == None
    requires ContentRule(StrictType(Get(body, "type")), Get(body, "content"), Get(body, "hashtags"), Get(body, "mentions")) == None
    requires HashtagsRule(Get(body, "hashtags")) == None && MentionsRule(Get(body, "mentions"), lib) == None
    requires MediasRule(Get(body, "medias")) == None
    ensures TweetsValidator(body, lib).Proceed?
  {
    TweetsSchemaOutcome(None, None, None, None, None, None, None);
  }

  lemma StringTypePassesIsIn(body: map<string, Json>)
    requires StringTypedRetweet(body)
    ensures TypeRule(Get(body, "type")) == None
    ensures AudienceRule(Get(body, "audience")) == None
    ensures StrictType(Get(body, "type")) == None
  {
    EnumArrays();
    assert Decimals(TweetTypes)[1] == "1";
    IsInString("1", TweetTypes);
    assert Decimals(TweetAudiences)[0] == "0";
    IsInNumber(0, TweetAudiences);
  }

  lemma StringTypeOtherFieldsPass(body: map<string, Json>, lib: Lib)
    requires StringTypedRetweet(body)
    ensures ParentRule(None, Get(body, "parent_id"), lib) == None
    ensures ContentRule(None, Get(body, "content"), Get(body, "hashtags"), Get(body, "mentions")) == None
    ensures HashtagsRule(Get(body, "hashtags")) == None
    ensures MentionsRule(Get(body, "mentions"), lib) == None
    ensures MediasRule(Get(body, "medias")) == None
  {
  }

  /** The `type` rule as intended: a JSON number that is one of TweetType's codes. */
  function TypeRuleStrict(v: Option<Json>): (r: Option<ErrorMsg>)
    ensures r.None? <==> StrictType(v).Some?
    ensures r.None? ==> IsIn(v, TweetTypes)
    ensures r.Some? ==> r == Some(Plain(TweetTypeInvalid))
  {
    StrictTypeIsIn(v);
    if StrictType(v).Some? then None else Some(Plain(TweetTypeInvalid))
  }

  /**
    `tweetsValidator` with the type checked as the number the rules compare
    against, so that every accepted body is held to its type's rules.
   */
  function TweetsValidatorStrict(body: map<string, Json>, lib: Lib): Outcome {
    var kind := StrictType(Get(body, "type"));
    Validate(Collect(TweetsSchema(
      TypeRuleStrict(Get(body, "type")),
      AudienceRule(Get(body, "audience")),
      ParentRule(kind, Get(body, "parent_id"), lib),
      ContentRule(kind, Get(body, "content"), Get(body, "hashtags"), Get(body, "mentions")),
      HashtagsRule(Get(body, "hashtags")),
      MentionsRule(Get(body, "mentions"), lib),
      MediasRule(Get(body, "medias")))))
  }

  /**
    With the strict type check, a body is accepted exactly when its type is
    a TweetType code `k`, its audience passes, its arrays are well formed
    and its parent and content agree with `k`.
   */
  lemma TweetsValidatorStrictSpec(body: map<string, Json>, lib: Lib)
    ensures !TweetsValidatorStrict(body, lib).Forward?
    ensures TweetsValidatorStrict(body, lib).Proceed? <==>
              && StrictType(Get(body, "type")).Some?
              && IsIn(Get(body, "audience"), TweetAudiences)
              && ArraysWellFormed(body, lib)
              && ConsistentWithType(body, StrictType(Get(body, "type")).value, lib)
  {
    var kind := StrictType(Get(body, "type"));
    TweetsSchemaOutcome(
      TypeRuleStrict(Get(body, "type")),
      AudienceRule(Get(body, "audience")),
      ParentRule(kind, Get(body, "parent_id"), lib),
      ContentRule(kind, Get(body, "content"), Get(body, "hashtags"), Get(body, "mentions")),
      HashtagsRule(Get(body, "hashtags")),
      MentionsRule(Get(body, "mentions"), lib),
      MediasRule(Get(body, "medias")));
  }

  /** The correction only narrows: every body the strict validator accepts, the as-written one accepts too. */
  lemma StrictNarrowsAsWritten(body: map<string, Json>, lib: Lib)
    ensures TweetsValidatorStrict(body, lib).Proceed? ==> TweetsValidator(body, lib).Proceed?
  {
    TweetsValidatorStrictSpec(body, lib);
    TweetsValidatorSpec(body, lib);
    StrictTypeIsIn(Get(body, "type"));
  }

  /** The strict validator refuses the string-typed retweet. */
  lemma StrictRejectsStringType(body: map<string, Json>, lib: Lib)
    requires StringTypedRetweet(body)
    ensures TweetsValidatorStrict(body, lib).Unprocessable?
  {
    assert TypeRuleStrict(Get(body, "type")).Some?;
    TweetsValidatorStrictSpec(body, lib);
  }
}

=== FILE: tweets_service.dfy ===
/**
  src/services/tweets.services.ts: the hashtag get-or-create and the tweet
  record `createTweet` inserts. The upserts are taken one after another in
  input order; each call's freshly generated ObjectId and the clock are
  inputs.
 */
module TweetsService {
  import opened Wrappers
  import opened Js
  import opened Enums
  import opened Schemas
  import Query

  function ByName(name: string): Hashtag -> bool {
    (h: Hashtag) => h.name == name
  }

  /** No two hashtag documents share a name. */
  predicate UniqueNames(store: seq<Hashtag>) {
    forall i, j :: 0 <= i < j < |store| ==> store[i].name != store[j].name
  }

  /** A first match in a prefix stays the first match after appending. */
  lemma FindFirstExtend<T>(a: seq<T>, b: seq<T>, p: T -> bool)
    requires Query.FindFirst(a, p).Some?
    ensures Query.FindFirst(a + b, p) == Query.FindFirst(a, p)
  {
    var i := Query.FindFirst(a, p).value;
    assert forall j :: 0 <= j < |a| ==> (a + b)[j] == a[j];
    assert p((a + b)[i]);
  }

  lemma PrefixThenRest<T>(s: seq<T>, a: seq<T>)
    requires |a| <= |s| && s[..|a|] == a
    ensures s == a + s[|a|..]
  {
  }

  /**
    One `findOneAndUpdate({ name }, { $setOnInsert: new Hashtag({ name }) },
    { upsert: true, returnDocument: 'after' })`: an existing document with
    that name is returned as it is; otherwise a document with the fresh id
    is appended and returned.
   */
  function Upsert(store: seq<Hashtag>, name: string, id: ObjectId, now: int): (r: (seq<Hashtag>, Hashtag))
    ensures r.1.name == name
    ensures Query.FindOne(store, ByName(name)).Some? ==> r == (store, Query.FindOne(store, ByName(name)).value)
    ensures Query.FindOne(store, ByName(name)).None? ==> r.0 == store + [r.1] && r.1 == Hashtag(id, name, now)
    ensures Query.FindOne(r.0, ByName(name)) == Some(r.1)
  {
    match Query.FindFirst(store, ByName(name))
    case Some(i) => (store, store[i])
    case None =>
      var h := Hashtag(id, name, now);
      assert ByName(name)((store + [h])[|store|]);
      (store + [h], h)
  }

  /**
    `checkAndCreateHashtag`: one document per input name, in input order,
    the i-th named `names[i]`. The store only grows at its end, by
    documents named after inputs, and each returned document is the first
    one with its name in the final store, so a name already present is
    returned unmodified.
   */
  function CheckAndCreateHashtag(store: seq<Hashtag>, names: seq<string>, ids: seq<ObjectId>, now: int): (r: (seq<Hashtag>, seq<Hashtag>))
    requires |ids| == |names|
    ensures |r.1| == |names|
    ensures forall i :: 0 <= i < |names| ==> r.1[i].name == names[i]
    ensures |store| <= |r.0| && r.0[..|store|] == store
    ensures forall k :: |store| <= k < |r.0| ==> r.0[k].name in names
    ensures forall i :: 0 <= i < |names| ==> Query.FindOne(r.0, ByName(names[i])) == Some(r.1[i])
    decreases |names|
  {
    if |names| == 0 then (store, [])
    else
      var u := Upsert(store, names[0], ids[0], now);
      var r' := CheckAndCreateHashtag(u.0, names[1..], ids[1..], now);
      CheckStep(store, names, u.0, u.1, r'.0, r'.1);
      (r'.0, [u.1] + r'.1)
  }

  /** The inductive step of `CheckAndCreateHashtag`: the first upsert, then the rest on the grown store. */
  lemma CheckStep(store: seq<Hashtag>, names: seq<string>, store1: seq<Hashtag>, h: Hashtag,
                  store2: seq<Hashtag>, rest: seq<Hashtag>)
    requires |names| > 0 && h.name == names[0]
    requires store1 == store || store1 == store + [h]
    requires Query.FindOne(store1, ByName(names[0])) == Some(h)
    requires |rest| == |names| - 1
    requires forall i :: 0 <= i < |rest| ==> rest[i].name == names[1..][i]
    requires |store1| <= |store2| && store2[..|store1|] == store1
    requires forall k :: |store1| <= k < |store2| ==> store2[k].name in names[1..]
    requires forall i :: 0 <= i < |rest| ==> Query.FindOne(store2, ByName(names[1..][i])) == Some(rest[i])
    ensures var docs := [h] + rest;
            && |docs| == |names|
            && (forall i :: 0 <= i < |names| ==> docs[i].name == names[i])
            && |store| <= |store2| && store2[..|store|] == store
            && (forall k :: |store| <= k < |store2| ==> store2[k].name in names)
            && (forall i :: 0 <= i < |names| ==> Query.FindOne(store2, ByName(names[i])) == Some(docs[i]))
  {
    StepPrefix(store, store1, store2);
    StepNames(store, names, store1, h, store2);
    StepFind(names[0], store1, h, store2);
    StepAll(names, h, rest, store2);
  }

  lemma StepPrefix(store: seq<Hashtag>, store1: seq<Hashtag>, store2: seq<Hashtag>)
    requires |store| <= |store1| && store1[..|store|] == store
    requires |store1| <= |store2| && store2[..|store1|] == store1
    ensures |store| <= |store2| && store2[..|store|] == store
  {
    assert store2[..|store|] == store2[..|store1|][..|store|];
  }

  lemma StepNames(store: seq<Hashtag>, names: seq<string>, store1: seq<Hashtag>, h: Hashtag, store2: seq<Hashtag>)
    requires |names| > 0 && h.name == names[0]
    requires store1 == store || store1 == store + [h]
    requires |store1| <= |store2| && store2[..|store1|] == store1
    requires forall k :: |store1| <= k < |store2| ==> store2[k].name in names[1..]
    ensures forall k :: |store| <= k < |store2| ==> store2[k].name in names
  {
    forall k | |store| <= k < |store2| ensures store2[k].name in names {
      if k >= |store1| {
        assert store2[k].name in names[1..];
      } else {
        assert store2[k] == store1[k] == h;
      }
    }
  }

  lemma StepFind(name: string, store1: seq<Hashtag>, h: Hashtag, store2: seq<Hashtag>)
    requires Query.FindOne(store1, ByName(name)) == Some(h)
    requires |store1| <= |store2| && store2[..|store1|] == store1
    ensures Query.FindOne(store2, ByName(name)) == Some(h)
  {
    PrefixThenRest(store2, store1);
    FindFirstExtend(store1, store2[|store1|..], ByName(name));
  }

  lemma StepAll(names: seq<string>, h: Hashtag, rest: seq<Hashtag>, store2: seq<Hashtag>)
    requires |names| > 0 && |rest| == |names| - 1
    requires Query.FindOne(store2, ByName(names[0])) == Some(h)
    requires forall i :: 0 <= i < |rest| ==> Query.FindOne(store2, ByName(names[1..][i])) == Some(rest[i])
    ensures forall i :: 0 <= i < |names| ==> Query.FindOne(store2, ByName(names[i])) == Some(([h] + rest)[i])
  {
    forall i | 0 <= i < |names| ensures Query.FindOne(store2, ByName(names[i])) == Some(([h] + rest)[i]) {
      if i > 0 {
        assert names[i] == names[1..][i - 1];
      }
    }
  }

  /** Get-or-create never duplicates a name: a store with unique names keeps them unique. */
  lemma {:induction false} UpsertKeepsNamesUnique(store: seq<Hashtag>, names: seq<string>, ids: seq<ObjectId>, now: int)
    requires |ids| == |names|
    requires UniqueNames(store)
    ensures UniqueNames(CheckAndCreateHashtag(store, names, ids, now).0)
    decreases |names|
  {
    if |names| > 0 {
      var store1 := Upsert(store, names[0], ids[0], now).0;
      if Query.FindOne(store, ByName(names[0])).None? {
        forall i, j | 0 <= i < j < |store1| ensures store1[i].name != store1[j].name {
          if j == |store| {
            assert !ByName(names[0])(store[i]);
          }
        }
      }
      UpsertKeepsNamesUnique(store1, names[1..], ids[1..], now);
    }
  }

  /** Asking again for the same names returns the same documents and adds nothing. */
  lemma {:induction false} CheckAndCreateHashtagIdempotent(store: seq<Hashtag>, names: seq<string>, ids: seq<ObjectId>,
                                                           ids': seq<ObjectId>, now: int, later: int)
    requires |ids| == |names| && |ids'| == |names|
    ensures var (store1, docs) := CheckAndCreateHashtag(store, names, ids, now);
            CheckAndCreateHashtag(store1, names, ids', later) == (store1, docs)
  {
    var (store1, docs) := CheckAndCreateHashtag(store, names, ids, now);
    AllPresentNoChange(store1, names, ids', later);
    var again := CheckAndCreateHashtag(store1, names, ids', later);
    assert again.1 == docs;
  }

  /** When every name is already stored, get-or-create inserts nothing. */
  lemma {:induction false} AllPresentNoChange(store: seq<Hashtag>, names: seq<string>, ids: seq<ObjectId>, now: int)
    requires |ids| == |names|
    requires forall i :: 0 <= i < |names| ==> Query.FindOne(store, ByName(names[i])).Some?
    ensures CheckAndCreateHashtag(store, names, ids, now).0 == store
    decreases |names|
  {
    if |names| > 0 {
      assert Query.FindOne(store, ByName(names[0])).Some?;
      forall i | 0 <= i < |names| - 1 ensures Query.FindOne(store, ByName(names[1..][i])).Some? {
        assert names[1..][i] == names[i + 1];
      }
      AllPresentNoChange(store, names[1..], ids[1..], now);
    }
  }

  /** The validated body of a create-tweet request, with its fields already of their declared types. */
  datatype TweetReqBody = TweetReqBody(
    kind: TweetType,
    audience: TweetAudience,
    content: string,
    parentId: Option<ObjectId>,
    hashtags: seq<string>,
    mentions: seq<ObjectId>,
    medias: seq<Json>)

  /**
    `createTweet`: the hashtags are got or created, then exactly one tweet
    is inserted, with the author, type, audience, content, parent, mentions
    and medias copied from the body and, as hashtags, the ids of the
    returned documents in input order. Users, tokens, bookmarks and likes
    are untouched.
   */
  function CreateTweet(db: Db, userId: ObjectId, body: TweetReqBody, tweetId: ObjectId, hashtagIds: seq<ObjectId>, now: int): (r: Db)
    requires |hashtagIds| == |body.hashtags|
    ensures |r.tweets| == |db.tweets| + 1 && r.tweets[..|db.tweets|] == db.tweets
    ensures var t := r.tweets[|db.tweets|];
            && t.id == tweetId && t.userId == userId && t.kind == body.kind && t.audience == body.audience
            && t.content == body.content && t.parentId == body.parentId
            && t.mentions == body.mentions && t.medias == body.medias
            && |t.hashtags| == |body.hashtags|
            && forall i :: 0 <= i < |body.hashtags| ==>
                 exists k :: 0 <= k < |r.hashtags| && r.hashtags[k].id == t.hashtags[i] && r.hashtags[k].name == body.hashtags[i]
    ensures r.hashtags == CheckAndCreateHashtag(db.hashtags, body.hashtags, hashtagIds, now).0
    ensures r.users == db.users && r.refreshTokens == db.refreshTokens
    ensures r.bookmarks == db.bookmarks && r.likes == db.likes
  {
    var (store, docs) := CheckAndCreateHashtag(db.hashtags, body.hashtags, hashtagIds, now);
    var ids := seq(|docs|, i requires 0 <= i < |docs| => docs[i].id);
    var t := Schemas.Tweet.Tweet(tweetId, userId, body.kind, body.audience, body.content, body.parentId, ids, body.mentions, body.medias);
    forall i | 0 <= i < |body.hashtags|
      ensures exists k :: 0 <= k < |store| && store[k].id == ids[i] && store[k].name == body.hashtags[i]
    {
      var k := Query.FindFirst(store, ByName(body.hashtags[i])).value;
      assert store[k] == docs[i];
    }
    db.(tweets := db.tweets + [t], hashtags := store)
  }
}

=== FILE: upload.dfy ===
/**
  `handleUploadSingleImage`: a multipart form is parsed with a filter that
  admits only parts named `image` whose mimetype starts with `image/`; any
  refused part sets a flag that is never cleared. The parse callback then
  rejects with the parser's error, else with "invalid file type" when the
  flag is set, else with "no image" when no `image` file arrived, and
  otherwise resolves to the first `image` file. The parser's limits (one
  file, of at most 1 MB) are the parser's own; a breach reaches the model
  only as a parse error.
 */
module Upload {
  import opened Wrappers
  import opened Text

  const InvalidFileTypeText := "Invalid file type. Only image files are allowed."
  const NoImageText := "No image file uploaded or file field name is incorrect."

  /** One file part of the form, as the filter sees it. */
  datatype FilePart = FilePart(name: string, originalFilename: string, mimetype: Option<string>)

  datatype UploadError = ParseError(message: string) | Rejected(message: string)

  /** `name === 'image' && !!mimetype && mimetype.startsWith('image/')`. */
  predicate PassesFilter(p: FilePart) {
    p.name == "image" && p.mimetype.Some? && p.mimetype.value != "" && StartsWith(p.mimetype.value, "image/")
  }

  /**
    `parseError` is the error the parser hands its callback (a limit breach,
    an I/O failure), `parts` the file parts in arrival order.
   */
  method HandleUploadSingleImage(parseError: Option<string>, parts: seq<FilePart>) returns (r: Result<FilePart, UploadError>)
    ensures parseError.Some? ==> r == Err(ParseError(parseError.value))
    ensures parseError.None? && (exists i :: 0 <= i < |parts| && !PassesFilter(parts[i])) ==>
              r == Err(Rejected(InvalidFileTypeText))
    ensures parseError.None? && |parts| == 0 ==> r == Err(Rejected(NoImageText))
    ensures parseError.None? && |parts| > 0 && (forall i :: 0 <= i < |parts| ==> PassesFilter(parts[i])) ==>
              r == Ok(parts[0])
    ensures r.Ok? ==> PassesFilter(r.value) && r.value.name == "image"
  {
    var invalidDetected := false;
    var images: seq<FilePart> := [];
    var i := 0;
    while i < |parts|
      invariant 0 <= i <= |parts|
      invariant invalidDetected <==> exists j :: 0 <= j < i && !PassesFilter(parts[j])
      invariant !invalidDetected ==> images == parts[..i]
      invariant forall k :: 0 <= k < |images| ==> PassesFilter(images[k])
    {
      var isValid := PassesFilter(parts[i]);
      if !isValid {
        invalidDetected := true;
      } else {
        images := images + [parts[i]];
      }
      i := i + 1;
    }
    if parseError.Some? {
      return Err(ParseError(parseError.value));
    }
    if invalidDetected {
      return Err(Rejected(InvalidFileTypeText));
    }
    if |images| == 0 {
      return Err(Rejected(NoImageText));
    }
    assert images[0] == parts[0];
    r := Ok(images[0]);
  }
}

=== FILE: username.dfy ===
/**
  `REGEX_USERNAME`, `/^(?![0-9]+$)[A-Za-z0-9_]{4,15}$/`: a username is 4 to
  15 characters from `A-Z a-z 0-9 _`, and not made of digits only.
 */
module Username {
  import opened Text

  predicate IsWordChar(c: char) {
    IsUpper(c) || IsLower(c) || IsDigit(c) || c == '_'
  }

  predicate AllDigits(s: string) {
    forall i :: 0 <= i < |s| ==> IsDigit(s[i])
  }

  /** The three conditions the pattern combines. */
  predicate IsValidUsername(s: string) {
    && 4 <= |s| <= 15
    && (forall i :: 0 <= i < |s| ==> IsWordChar(s[i]))
    && !AllDigits(s)
  }

  /**
    One left-to-right pass, as the pattern matches: the length bound
    `{4,15}`, the class `[A-Za-z0-9_]` at every position, and the negative
    lookahead `(?![0-9]+$)` that refuses an all-digit string.
   */
  method MatchUsername(s: string) returns (ok: bool)
    ensures ok <==> IsValidUsername(s)
  {
    if |s| < 4 || |s| > 15 {
      return false;
    }
    var digitsOnly := true;
    var i := 0;
    while i < |s|
      invariant 0 <= i <= |s|
      invariant forall j :: 0 <= j < i ==> IsWordChar(s[j])
      invariant digitsOnly <==> AllDigits(s[..i])
    {
      if !IsWordChar(s[i]) {
        return false;
      }
      assert s[..i + 1] == s[..i] + [s[i]];
      digitsOnly := digitsOnly && IsDigit(s[i]);
      i := i + 1;
    }
    assert s[..i] == s;
    ok := !digitsOnly;
  }

  /** "1234" is refused (digits only); "user_1" and "____" are accepted. */
  lemma Examples()
    ensures !IsValidUsername("1234")
    ensures IsValidUsername("user_1")
    ensures IsValidUsername("____")
  {
    assert !IsDigit("user_1"[0]);
    assert !IsDigit("____"[0]);
  }
}

=== FILE: users_controllers.dfy ===
/**
  The branch logic of src/controllers/users.controllers.ts. `getUserById`
  is the by-id lookup on the user store; service calls whose bodies are not
  part of this model (`getUserByIdPublic`, `updateMe`,
  `getUserByUsernamePublic`, `followUser`, `unfollowUser`, `changePassword`)
  enter as their results.
 */
module UsersControllers {
  import opened Wrappers
  import opened Js
  import opened Errors
  import opened Enums
  import opened Schemas
  import opened UsersService
  import Query

  /** `res.status(status).json({ message, result })`; `result` is absent when the body has none. */
  datatype Response<T> = Response(status: int, message: Message, result: Option<T>)

  /** `usersService.getUserById`: the first user with that `_id`. */
  function GetUserById(db: Db, userId: ObjectId): (r: Option<User>)
    ensures r.Some? <==> exists j :: 0 <= j < |db.users| && db.users[j].id == userId
    ensures r.Some? ==> r.value.id == userId && r.value in db.users
  {
    Query.FindOne(db.users, ById(userId))
  }

  /**
    `verifyEmailController`: an unknown user gets 404 USER_NOT_FOUND and an
    already verified one (empty token) gets 200 EMAIL_ALREADY_VERIFIED_BEFORE,
    both without touching the store; otherwise `verifyEmail` runs.
   */
  function VerifyEmailController(db: Db, userId: ObjectId, tokens: TokenPair, now: int): (r: (Db, Response<()>))
    ensures r.1.status == NOT_FOUND <==> GetUserById(db, userId).None?
    ensures r.1.status == NOT_FOUND ==> r == (db, Response(NOT_FOUND, UserNotFound, None))
    ensures r.1.message == EmailAlreadyVerifiedBefore <==>
              GetUserById(db, userId).Some? && GetUserById(db, userId).value.emailVerifyToken == ""
    ensures r.1.message == EmailAlreadyVerifiedBefore ==> r.0 == db && r.1.status == OK
    ensures r.1.message == EmailVerifySuccess ==> r.0 == VerifyEmail(db, userId, tokens, now).0 && r.1.status == OK
    ensures GetUserById(db, userId).Some? && GetUserById(db, userId).value.emailVerifyToken != "" ==>
              r == (VerifyEmail(db, userId, tokens, now).0, Response(OK, EmailVerifySuccess, None))
  {
    match GetUserById(db, userId)
    case None => (db, Response(NOT_FOUND, UserNotFound, None))
    case Some(user) =>
      if user.emailVerifyToken == "" then (db, Response(OK, EmailAlreadyVerifiedBefore, None))
      else (VerifyEmail(db, userId, tokens, now).0, Response(OK, EmailVerifySuccess, None))
  }

  /** After `updateOne` with a change that keeps the filter true, the first match is where it was. */
  lemma {:induction false} FindFirstAfterUpdate<T>(s: seq<T>, p: T -> bool, f: T -> T)
    requires forall x :: p(x) ==> p(f(x))
    ensures Query.FindFirst(Query.UpdateOne(s, p, f), p) == Query.FindFirst(s, p)
  {
    var s' := Query.UpdateOne(s, p, f);
    match Query.FindFirst(s, p)
    case None =>
    case Some(i) =>
      assert p(s'[i]);
      forall j | 0 <= j < i ensures !p(s'[j]) {
        assert s'[j] == s[j];
      }
      FindFirstIsFirst(s', p, i);
  }

  lemma FindFirstIsFirst<T>(s: seq<T>, p: T -> bool, i: nat)
    requires i < |s| && p(s[i]) && forall j :: 0 <= j < i ==> !p(s[j])
    ensures Query.FindFirst(s, p) == Some(i)
  {
  }

  /**
    Verifying an email twice: the second request finds the token cleared,
    answers EMAIL_ALREADY_VERIFIED_BEFORE and changes nothing.
   */
  lemma VerifyEmailIdempotent(db: Db, userId: ObjectId, tokens: TokenPair, now: int, later: int)
    requires GetUserById(db, userId).Some?
    ensures var db1 := VerifyEmailController(db, userId, tokens, now).0;
            VerifyEmailController(db1, userId, tokens, later) == (db1, Response(OK, EmailAlreadyVerifiedBefore, None))
  {
    var db1 := VerifyEmailController(db, userId, tokens, now).0;
    var user := GetUserById(db, userId).value;
    if user.emailVerifyToken != "" {
      FindFirstAfterUpdate(db.users, ById(userId), MarkVerified(now));
      var i := Query.FindFirst(db.users, ById(userId)).value;
      assert db1.users[i].emailVerifyToken == "";
      assert GetUserById(db1, userId) == Some(db1.users[i]);
    }
  }

  /**
    `resendVerifyEmailController`: an unknown user gets 404 and a Verified
    one gets 200 EMAIL_ALREADY_VERIFIED_BEFORE, neither receiving a new
    token; otherwise `resendVerifyEmail` stores the new token.
   */
  function ResendVerifyEmailController(db: Db, userId: ObjectId, emailVerifyToken: string, now: int): (r: (Db, Response<()>))
    ensures r.1.status == NOT_FOUND <==> GetUserById(db, userId).None?
    ensures GetUserById(db, userId).None? ==> r == (db, Response(NOT_FOUND, UserNotFound, None))
    ensures GetUserById(db, userId).Some? && GetUserById(db, userId).value.verify == Verified ==>
              r == (db, Response(OK, EmailAlreadyVerifiedBefore, None))
    ensures r.0 != db ==> r.1 == Response(OK, ResendVerifyEmailSuccess, None)
                          && GetUserById(db, userId).value.verify != Verified
    ensures r.1.message == ResendVerifyEmailSuccess ==> r.0 == ResendVerifyEmail(db, userId, emailVerifyToken, now).0
    ensures GetUserById(db, userId).Some? && GetUserById(db, userId).value.verify != Verified ==>
              r == (ResendVerifyEmail(db, userId, emailVerifyToken, now).0, Response(OK, ResendVerifyEmailSuccess, None))
  {
    match GetUserById(db, userId)
    case None => (db, Response(NOT_FOUND, UserNotFound, None))
    case Some(user) =>
      if user.verify == Verified then (db, Response(OK, EmailAlreadyVerifiedBefore, None))
      else (ResendVerifyEmail(db, userId, emailVerifyToken, now).0, Response(OK, ResendVerifyEmailSuccess, None))
  }

  /** Once an email is verified, asking to resend the verification email changes nothing. */
  lemma VerifiedUserGetsNoNewToken(db: Db, userId: ObjectId, tokens: TokenPair, now: int,
                                   emailVerifyToken: string, later: int)
    requires GetUserById(db, userId).Some? && GetUserById(db, userId).value.emailVerifyToken != ""
    ensures var db1 := VerifyEmailController(db, userId, tokens, now).0;
            ResendVerifyEmailController(db1, userId, emailVerifyToken, later) == (db1, Response(OK, EmailAlreadyVerifiedBefore, None))
  {
    var db1 := VerifyEmailController(db, userId, tokens, now).0;
    FindFirstAfterUpdate(db.users, ById(userId), MarkVerified(now));
    var i := Query.FindFirst(db.users, ById(userId)).value;
    assert db1.users[i].verify == Verified;
    assert GetUserById(db1, userId) == Some(db1.users[i]);
  }

  /** The shared tail of getMe, updateMe and getProfile: 404 USER_NOT_FOUND, or 200 with the record. */
  function RecordOrNotFound<T>(found: Option<T>, success: Message): (r: Response<T>)
    requires success != UserNotFound
    ensures r.status == NOT_FOUND <==> found.None?
    ensures r.status == NOT_FOUND ==> r.message == UserNotFound && r.result.None?
    ensures r.status != NOT_FOUND ==> r.status == OK && r.message == success && r.result == found
  {
    match found
    case None => Response(NOT_FOUND, UserNotFound, None)
    case Some(_) => Response(OK, success, found)
  }

  /** `getMeController`: 404 exactly when the public lookup finds nothing, else the record found. */
  function GetMeController<T>(found: Option<T>): (r: Response<T>)
    ensures r.status == NOT_FOUND <==> found.None?
    ensures found.Some? ==> r == Response(OK, GetMeSuccess, found)
  {
    RecordOrNotFound(found, GetMeSuccess)
  }

  /** `updateMeController`: 404 exactly when the update returns no document, else the updated one. */
  function UpdateMeController<T>(updated: Option<T>): (r: Response<T>)
    ensures r.status == NOT_FOUND <==> updated.None?
    ensures updated.Some? ==> r == Response(OK, UpdateMeSuccess, updated)
  {
    RecordOrNotFound(updated, UpdateMeSuccess)
  }

  /** `getProfileController`: 404 exactly when no user has that username, else the profile. */
  function GetProfileController<T>(found: Option<T>): (r: Response<T>)
    ensures r.status == NOT_FOUND <==> found.None?
    ensures found.Some? ==> r == Response(OK, GetProfileSuccess, found)
  {
    RecordOrNotFound(found, GetProfileSuccess)
  }

  /** A service result tested with `!result`; an absent result (`undefined`) is falsy. */
  predicate ResultTruthy(result: Option<Json>) {
    result.Some? && Truthy(result.value)
  }

  /** `followController`: 500 FOLLOW_FAILED exactly when the service result is falsy. */
  function FollowController(result: Option<Json>): (r: Response<()>)
    ensures r.status == INTERNAL_SERVER_ERROR <==> !ResultTruthy(result)
    ensures r.status != INTERNAL_SERVER_ERROR ==> r == Response(OK, FollowSuccess, None)
    ensures r.status == INTERNAL_SERVER_ERROR ==> r.message == FollowFailed
  {
    if !ResultTruthy(result) then Response(INTERNAL_SERVER_ERROR, FollowFailed, None)
    else Response(OK, FollowSuccess, None)
  }

  /** `unfollowController`: 500 UNFOLLOW_FAILED exactly when the service result is falsy. */
  function UnfollowController(result: Option<Json>): (r: Response<()>)
    ensures r.status == INTERNAL_SERVER_ERROR <==> !ResultTruthy(result)
    ensures r.status != INTERNAL_SERVER_ERROR ==> r == Response(OK, UnfollowSuccess, None)
    ensures r.status == INTERNAL_SERVER_ERROR ==> r.message == UnfollowFailed
  {
    if !ResultTruthy(result) then Response(INTERNAL_SERVER_ERROR, UnfollowFailed, None)
    else Response(OK, UnfollowSuccess, None)
  }

  /**
    `changePasswordController`: success only when the write was
    acknowledged and modified a document; otherwise 500.
   */
  function ChangePasswordController(result: UpdateResult): (r: Response<()>)
    ensures r.status == OK <==> result.acknowledged && result.modifiedCount > 0
    ensures r.status != OK ==> r == Response(INTERNAL_SERVER_ERROR, ChangePasswordFailed, None)
    ensures r.status == OK ==> r.message == ChangePasswordSuccess
  {
    if !result.acknowledged || result.modifiedCount == 0 then Response(INTERNAL_SERVER_ERROR, ChangePasswordFailed, None)
    else Response(OK, ChangePasswordSuccess, None)
  }

  /** A password change for an unknown user id never reports success. */
  lemma ChangePasswordUnknownUserFails(db: Db, userId: ObjectId, f: User -> User)
    requires GetUserById(db, userId).None?
    ensures ChangePasswordController(UpdateUserById(db.users, userId, f).1).status == INTERNAL_SERVER_ERROR
  {
  }
}

=== FILE: users_rules.dfy ===
/**
  The request rules of src/middlewares/users.middlewares.ts. Each field's
  chain yields the FIRST error it records (what `mapped()` reports for the
  field); chains are taken to run one after another in declaration order,
  so a later chain sees the values an earlier chain's `trim` wrote back.
 */
module UsersRules {
  import opened Wrappers
  import opened Js
  import opened Text
  import opened Errors
  import opened Library
  import opened Schemas
  import opened Validation
  import opened UsersService
  import Query

  predicate NonEmpty(s: string) {
    s != ""
  }

  predicate HasLower(s: string) { exists i :: 0 <= i < |s| && IsLower(s[i]) }
  predicate HasUpper(s: string) { exists i :: 0 <= i < |s| && IsUpper(s[i]) }
  predicate HasDigit(s: string) { exists i :: 0 <= i < |s| && IsDigit(s[i]) }
  predicate HasSymbol(s: string, isSymbol: char -> bool) { exists i :: 0 <= i < |s| && isSymbol(s[i]) }

  /**
    The symbol class as `isStrongPassword` counts it: each character goes to
    the first of upper case, lower case, digit and symbol that it matches,
    so a symbol is never also a letter or a digit.
   */
  function SymbolClass(isSymbol: char -> bool): char -> bool {
    (c: char) => isSymbol(c) && !IsUpper(c) && !IsLower(c) && !IsDigit(c)
  }

  /**
    validator.js `isStrongPassword` with minLength 6 and at least one
    lowercase letter, uppercase letter, digit and symbol: it counts each
    class over the string and compares the counts with the minimums. Its
    length is JavaScript's `length`, in UTF-16 code units.
   */
  predicate IsStrongPassword(s: string, isSymbol: char -> bool) {
    && Utf16Length(s) >= 6
    && Query.Count(s, IsLower) >= 1
    && Query.Count(s, IsUpper) >= 1
    && Query.Count(s, IsDigit) >= 1
    && Query.Count(s, SymbolClass(isSymbol)) >= 1
  }

  /** The password policy on the trimmed value: 6 to 50 characters as `isLength` counts them, and strong. */
  predicate PasswordPolicy(t: string, isSymbol: char -> bool) {
    6 <= VisibleLength(t) <= 50 && IsStrongPassword(t, isSymbol)
  }

  /** The messages of the password chain, or of the confirm-password chain. */
  function RequiredMsg(confirm: bool): Message { if confirm then ConfirmPasswordIsRequired else PasswordIsRequired }
  function MustBeStringMsg(confirm: bool): Message { if confirm then ConfirmPasswordMustBeString else PasswordMustBeString }
  function LengthMsg(confirm: bool): Message { if confirm then ConfirmPasswordLengthInvalid else PasswordLengthInvalid }
  function NotStrongMsg(confirm: bool): Message { if confirm then ConfirmPasswordNotStrongEnough else PasswordNotStrongEnough }

  /**
    The `password` chain (and, with `confirm`, the shared part of the
    `confirm_password` chain): notEmpty, isString, trim, isLength 6..50,
    isStrongPassword. A value passes exactly when it is a string whose
    trimmed form is 6 to 50 characters long and holds a lowercase letter,
    an uppercase letter, a digit and a symbol.
   */
  function PasswordChain(v: Option<Json>, confirm: bool, isSymbol: char -> bool): (r: Option<ErrorMsg>)
    ensures r.None? <==> v.Some? && v.value.JStr? && PasswordPolicy(Trim(v.value.s), isSymbol)
    ensures r.None? ==> var t := Trim(v.value.s);
              |t| >= 6 && HasLower(t) && HasUpper(t) && HasDigit(t) && HasSymbol(t, isSymbol)
    ensures r.Some? ==> r.value.Plain?
    ensures r == Some(Plain(LengthMsg(confirm))) ==> v.Some? && v.value.JStr? && !(6 <= VisibleLength(Trim(v.value.s)) <= 50)
    ensures r == Some(Plain(NotStrongMsg(confirm))) ==>
              v.Some? && v.value.JStr? && 6 <= VisibleLength(Trim(v.value.s)) <= 50 && !IsStrongPassword(Trim(v.value.s), isSymbol)
  {
    if !StandardCheck(v, NonEmpty) then Some(Plain(RequiredMsg(confirm)))
    else if !(v.Some? && v.value.JStr?) then Some(Plain(MustBeStringMsg(confirm)))
    else
      var t := Trim(v.value.s);
      if !(6 <= VisibleLength(t) <= 50) then Some(Plain(LengthMsg(confirm)))
      else if !IsStrongPassword(t, isSymbol) then Some(Plain(NotStrongMsg(confirm)))
      else
        CountPositiveHasOne(t, IsLower);
        CountPositiveHasOne(t, IsUpper);
        CountPositiveHasOne(t, IsDigit);
        CountPositiveHasOne(t, SymbolClass(isSymbol));
        None
  }

  lemma CountPositiveHasOne(s: string, p: char -> bool)
    requires Query.Count(s, p) >= 1
    ensures exists i :: 0 <= i < |s| && p(s[i])
  {
  }

  /** The `name` chain: notEmpty, isString, trim, isLength 1..100. */
  function NameChain(v: Option<Json>): (r: Option<ErrorMsg>)
    ensures r.None? <==> v.Some? && v.value.JStr? && 1 <= VisibleLength(Trim(v.value.s)) <= 100
    ensures r.Some? ==> r.value.Plain?
  {
    if !StandardCheck(v, NonEmpty) then Some(Plain(NameIsRequired))
    else if !(v.Some? && v.value.JStr?) then Some(Plain(NameMustBeString))
    else if !(1 <= VisibleLength(Trim(v.value.s)) <= 100) then Some(Plain(NameLengthInvalid))
    else None
  }

  /**
    What the trim sanitizer leaves in the body for a string: the string
    trimmed. For any other value express-validator's `trim` stores the
    value's string form trimmed (for an array, each element's); the model
    keeps the value as it was. No outcome depends on the difference: such
    a password already fails `isString`, and none of those string forms
    (digits and `-`, `true`, `false`, `[object Object]`, or an array) is a
    strong password the confirmation could equal.
   */
  function SanitizeTrim(v: Option<Json>): (r: Option<Json>)
    ensures v.Some? && v.value.JStr? ==> r == Some(JStr(Trim(v.value.s))) && JsString(r) == Trim(v.value.s)
  {
    match v
    case Some(JStr(s)) => Some(JStr(Trim(s)))
    case _ => v
  }

  /**
    The stored email the `email` chains' custom checks can match. They pass
    the value `trim` left in the body to MongoDB as it is, and only a string
    equals a stored email: a string is looked up trimmed, while any other
    value, an array of strings included (`trim` trims its elements and keeps
    the array), matches no user.
   */
  function EmailLookupKey(v: Option<Json>): (k: Option<string>)
    ensures k.Some? <==> v.Some? && v.value.JStr?
    ensures k.Some? ==> k.value == Trim(v.value.s)
  {
    match v
    case Some(JStr(s)) => Some(Trim(s))
    case _ => None
  }

  /** `checkEmailExist(value)` on the trimmed body value. */
  predicate EmailTaken(db: Db, v: Option<Json>) {
    EmailLookupKey(v).Some? && CheckEmailExist(db, EmailLookupKey(v).value)
  }

  /** The registration `email` chain: notEmpty, isEmail, trim, then no existing user with that email. */
  function RegisterEmailChain(db: Db, v: Option<Json>, lib: Lib): (r: Option<ErrorMsg>)
    ensures r.None? <==> StandardCheck(v, NonEmpty) && StandardCheck(v, lib.isEmail) && !EmailTaken(db, v)
    ensures r.Some? ==> r.value.Plain?
    ensures StandardCheck(v, NonEmpty) && StandardCheck(v, lib.isEmail) && EmailTaken(db, v) ==>
              r == Some(Plain(EmailAlreadyExists))
  {
    if !StandardCheck(v, NonEmpty) then Some(Plain(EmailIsRequired))
    else if !StandardCheck(v, lib.isEmail) then Some(Plain(EmailInvalid))
    else if EmailTaken(db, v) then Some(Plain(EmailAlreadyExists))
    else None
  }

  /**
    As written, an array holding one registered email passes the uniqueness
    check: `notEmpty` and `isEmail` accept each element, and
    `checkEmailExist([email])` matches no stored string.
   */
  lemma ArrayEmailSkipsUniqueness(db: Db, e: string, lib: Lib)
    requires e != "" && lib.isEmail(e)
    requires CheckEmailExist(db, e)
    ensures RegisterEmailChain(db, Some(JArr([JStr(e)])), lib).None?
  {
    assert StandardCheck(Some(JArr([JStr(e)])), NonEmpty);
    assert StandardCheck(Some(JArr([JStr(e)])), lib.isEmail);
  }

  /**
    The `email` chain as intended: the email must be a string, and no user
    may already have it.
   */
  function RegisterEmailChainStrict(db: Db, v: Option<Json>, lib: Lib): (r: Option<ErrorMsg>)
    ensures r.None? <==> v.Some? && v.value.JStr? && v.value.s != "" && lib.isEmail(v.value.s)
                         && !CheckEmailExist(db, Trim(v.value.s))
    ensures r.None? ==> forall i :: 0 <= i < |db.users| ==> db.users[i].email != Trim(v.value.s)
    ensures r.Some? ==> r.value.Plain?
  {
    if !(v.Some? && v.value.JStr?) then Some(Plain(EmailInvalid))
    else RegisterEmailChain(db, v, lib)
  }

  /** The strict chain refuses the array that slips through as written. */
  lemma StrictEmailRejectsArray(db: Db, e: string, lib: Lib)
    ensures RegisterEmailChainStrict(db, Some(JArr([JStr(e)])), lib) == Some(Plain(EmailInvalid))
  {
  }

  /**
    The `confirm_password` chain: the password checks with their own
    messages, then `value === req.body.password`, where `passwordSeen` is the
    body's password at that moment.
   */
  function ConfirmPasswordChain(v: Option<Json>, passwordSeen: Option<Json>, isSymbol: char -> bool): (r: Option<ErrorMsg>)
    ensures r.None? <==> v.Some? && v.value.JStr? && PasswordPolicy(Trim(v.value.s), isSymbol)
                         && passwordSeen == Some(JStr(Trim(v.value.s)))
    ensures r.Some? ==> r.value.Plain?
  {
    match PasswordChain(v, true, isSymbol)
    case Some(e) => Some(e)
    case None => if passwordSeen == Some(JStr(Trim(v.value.s))) then None else Some(Plain(ConfirmPasswordNotMatch))
  }

  /** The `date_of_birth` chain: notEmpty and isISO8601, both with the same message. */
  function DateOfBirthChain(v: Option<Json>, lib: Lib): (r: Option<ErrorMsg>)
    ensures r.None? <==> StandardCheck(v, NonEmpty) && StandardCheck(v, lib.isIso8601)
    ensures r.Some? ==> r == Some(Plain(DateOfBirthInvalid))
  {
    if !StandardCheck(v, NonEmpty) || !StandardCheck(v, lib.isIso8601) then Some(Plain(DateOfBirthInvalid)) else None
  }

  function RegisterFields(db: Db, body: map<string, Json>, lib: Lib): seq<(string, Option<ErrorMsg>)> {
    var password := Get(body, "password");
    RegisterSchema(
      NameChain(Get(body, "name")),
      RegisterEmailChain(db, Get(body, "email"), lib),
      PasswordChain(password, false, lib.isSymbol),
      ConfirmPasswordChain(Get(body, "confirm_password"), SanitizeTrim(password), lib.isSymbol),
      DateOfBirthChain(Get(body, "date_of_birth"), lib))
  }

  /** The fields of `registerValidator`'s schema, in order, with their first errors. */
  function RegisterSchema(name: Option<ErrorMsg>, email: Option<ErrorMsg>, password: Option<ErrorMsg>,
                          confirm: Option<ErrorMsg>, dob: Option<ErrorMsg>): seq<(string, Option<ErrorMsg>)> {
    [("name", name), ("email", email), ("password", password), ("confirm_password", confirm), ("date_of_birth", dob)]
  }

  /** A registration schema run answers 422 with every failing field, or lets the request through. */
  lemma RegisterSchemaOutcome(name: Option<ErrorMsg>, email: Option<ErrorMsg>, password: Option<ErrorMsg>,
                              confirm: Option<ErrorMsg>, dob: Option<ErrorMsg>)
    requires name.None? || name.value.Plain?
    requires email.None? || email.value.Plain?
    requires password.None? || password.value.Plain?
    requires confirm.None? || confirm.value.Plain?
    requires dob.None? || dob.value.Plain?
    ensures !Validate(Collect(RegisterSchema(name, email, password, confirm, dob))).Forward?
    ensures Validate(Collect(RegisterSchema(name, email, password, confirm, dob))).Proceed? <==>
              name.None? && email.None? && password.None? && confirm.None? && dob.None?
    ensures email.Some? ==> FieldError("email", email.value) in Validate(Collect(RegisterSchema(name, email, password, confirm, dob))).errors
  {
    var fields := RegisterSchema(name, email, password, confirm, dob);
    assert fields[0].1 == name && fields[1].1 == email && fields[2].1 == password;
    assert fields[3].1 == confirm && fields[4].1 == dob;
    PlainErrorsNeverForward(fields);
    if name.None? && email.None? && password.None? && confirm.None? && dob.None? {
      forall i | 0 <= i < |fields| ensures fields[i].1.None? {
        if i == 0 {} else if i == 1 {} else if i == 2 {} else if i == 3 {} else {}
      }
    }
    if email.Some? {
      CollectKeeps(fields, 1);
    }
  }

  /** `registerValidator`. */
  function RegisterValidator(db: Db, body: map<string, Json>, lib: Lib): Outcome {
    Validate(Collect(RegisterFields(db, body, lib)))
  }

  /** The registration body the rules admit, stated field by field. */
  predicate AcceptableRegistration(db: Db, body: map<string, Json>, lib: Lib) {
    && "name" in body && body["name"].JStr? && 1 <= VisibleLength(Trim(body["name"].s)) <= 100
    && StandardCheck(Get(body, "email"), NonEmpty) && StandardCheck(Get(body, "email"), lib.isEmail)
    && !EmailTaken(db, Get(body, "email"))
    && "password" in body && body["password"].JStr? && PasswordPolicy(Trim(body["password"].s), lib.isSymbol)
    && "confirm_password" in body && body["confirm_password"].JStr?
    && Trim(body["confirm_password"].s) == Trim(body["password"].s)
    && StandardCheck(Get(body, "date_of_birth"), NonEmpty) && StandardCheck(Get(body, "date_of_birth"), lib.isIso8601)
  }

  /**
    Registration passes exactly when every field rule holds; in particular
    the trimmed confirmation equals the trimmed password, and the email is
    not already taken. It never forwards: failures answer 422.
   */
  lemma RegisterValidatorSpec(db: Db, body: map<string, Json>, lib: Lib)
    ensures RegisterValidator(db, body, lib).Proceed? <==> AcceptableRegistration(db, body, lib)
    ensures !RegisterValidator(db, body, lib).Forward?
  {
    var password := Get(body, "password");
    RegisterChainsPass(db, body, lib);
    RegisterSchemaOutcome(
      NameChain(Get(body, "name")),
      RegisterEmailChain(db, Get(body, "email"), lib),
      PasswordChain(password, false, lib.isSymbol),
      ConfirmPasswordChain(Get(body, "confirm_password"), SanitizeTrim(password), lib.isSymbol),
      DateOfBirthChain(Get(body, "date_of_birth"), lib));
  }

  /** The five chains of `registerValidator` all pass exactly for an acceptable registration. */
  lemma RegisterChainsPass(db: Db, body: map<string, Json>, lib: Lib)
    ensures && NameChain(Get(body, "name")).None?
            && RegisterEmailChain(db, Get(body, "email"), lib).None?
            && PasswordChain(Get(body, "password"), false, lib.isSymbol).None?
            && ConfirmPasswordChain(Get(body, "confirm_password"), SanitizeTrim(Get(body, "password")), lib.isSymbol).None?
            && DateOfBirthChain(Get(body, "date_of_birth"), lib).None? <==>
            AcceptableRegistration(db, body, lib)
  {
    var password := Get(body, "password");
    if PasswordChain(password, false, lib.isSymbol).None? {
      assert SanitizeTrim(password) == Some(JStr(Trim(body["password"].s)));
    }
  }

  /** An email that is already registered is refused with EMAIL_ALREADY_EXISTS on the `email` field. */
  lemma RegisterRejectsTakenEmail(db: Db, body: map<string, Json>, lib: Lib)
    requires StandardCheck(Get(body, "email"), NonEmpty) && StandardCheck(Get(body, "email"), lib.isEmail)
    requires EmailTaken(db, Get(body, "email"))
    ensures RegisterValidator(db, body, lib).Unprocessable?
    ensures FieldError("email", Plain(EmailAlreadyExists)) in RegisterValidator(db, body, lib).errors
  {
    var password := Get(body, "password");
    RegisterSchemaOutcome(
      NameChain(Get(body, "name")),
      RegisterEmailChain(db, Get(body, "email"), lib),
      PasswordChain(password, false, lib.isSymbol),
      ConfirmPasswordChain(Get(body, "confirm_password"), SanitizeTrim(password), lib.isSymbol),
      DateOfBirthChain(Get(body, "date_of_birth"), lib));
  }

  /** `loginValidator`'s result: the outcome and the user attached to the request, if any. */
  datatype LoginCheck = LoginCheck(outcome: Outcome, user: Option<User>)

  function Matches(email: string, hashed: string): User -> bool {
    (u: User) => u.email == email && u.password == hashed
  }

  /**
    The login lookup, `findOne({ email, password: hashPassword(password) })`:
    a user is found exactly when some user has that email and, as stored
    password, the hash of the password given.
   */
  function LoginLookup(db: Db, email: string, passwordSeen: Option<Json>, lib: Lib): (r: Option<User>)
    ensures r.Some? <==> exists i :: 0 <= i < |db.users| && db.users[i].email == email
                                     && db.users[i].password == lib.hashPassword(JsString(passwordSeen))
    ensures r.Some? ==> r.value in db.users && r.value.email == email
                        && r.value.password == lib.hashPassword(JsString(passwordSeen))
  {
    Query.FindOne(db.users, Matches(email, lib.hashPassword(JsString(passwordSeen))))
  }

  /**
    The `email` chain of `loginValidator`: isEmail, then the lookup with
    the trimmed email and the hash of `passwordSeen`, the body's password
    when the custom check runs. Only a string email can find a user. Its
    error, if any, is a plain message; the user found is returned with it.
   */
  function LoginEmailChain(db: Db, email: Option<Json>, passwordSeen: Option<Json>, lib: Lib): (r: (Option<ErrorMsg>, Option<User>))
    ensures r.1.Some? <==> EmailLookupKey(email).Some? && LoginLookup(db, EmailLookupKey(email).value, passwordSeen, lib).Some?
    ensures r.1.Some? ==> r.1 == LoginLookup(db, EmailLookupKey(email).value, passwordSeen, lib)
    ensures r.0.None? <==> StandardCheck(email, lib.isEmail) && r.1.Some?
    ensures r.0.Some? ==> r.0.value.Plain?
  {
    var user := match EmailLookupKey(email)
      case None => None
      case Some(key) => LoginLookup(db, key, passwordSeen, lib);
    var emailError :=
      if !StandardCheck(email, lib.isEmail) then Some(Plain(EmailInvalid))
      else if user.None? then Some(Plain(EmailOrPasswordIncorrect))
      else None;
    (emailError, user)
  }

  /**
    The two chains of `loginValidator`, with the lookup hashing
    `passwordSeen`: the request proceeds exactly when the email is an email,
    is a string, and finds a user with that email and hash, and the
    password chain passes.
   */
  function LoginChecks(db: Db, body: map<string, Json>, passwordSeen: Option<Json>, lib: Lib): (r: LoginCheck)
    ensures r.user.Some? ==> && Get(body, "email").Some? && Get(body, "email").value.JStr?
                             && r.user.value in db.users && r.user.value.email == Trim(Get(body, "email").value.s)
                             && r.user.value.password == lib.hashPassword(JsString(passwordSeen))
    ensures r.outcome.Proceed? <==>
              && StandardCheck(Get(body, "email"), lib.isEmail)
              && EmailLookupKey(Get(body, "email")).Some?
              && LoginLookup(db, EmailLookupKey(Get(body, "email")).value, passwordSeen, lib).Some?
              && PasswordChain(Get(body, "password"), false, lib.isSymbol).None?
    ensures r.outcome.Proceed? ==> r.user.Some?
    ensures !r.outcome.Forward?
  {
    var email := LoginEmailChain(db, Get(body, "email"), passwordSeen, lib);
    var passwordError := PasswordChain(Get(body, "password"), false, lib.isSymbol);
    LoginCheck(ValidatePair("email", email.0, "password", passwordError), email.1)
  }

  /**
    `loginValidator`: the email chain (isEmail, trim, lookup) runs before the
    password chain, so the lookup hashes the password as sent, untrimmed.
   */
  function LoginValidator(db: Db, body: map<string, Json>, lib: Lib): (r: LoginCheck)
    ensures r.user.Some? ==> && Get(body, "email").Some? && Get(body, "email").value.JStr?
                             && r.user.value in db.users && r.user.value.email == Trim(Get(body, "email").value.s)
                             && r.user.value.password == lib.hashPassword(JsString(Get(body, "password")))
    ensures r.outcome.Proceed? <==>
              && StandardCheck(Get(body, "email"), lib.isEmail)
              && EmailLookupKey(Get(body, "email")).Some?
              && LoginLookup(db, EmailLookupKey(Get(body, "email")).value, Get(body, "password"), lib).Some?
              && PasswordChain(Get(body, "password"), false, lib.isSymbol).None?
    ensures r.outcome.Proceed? ==> r.user.Some?
    ensures !r.outcome.Forward?
  {
    LoginChecks(db, body, Get(body, "password"), lib)
  }

  /**
    Register then login: a client that sends the same email and the same
    password `p`, with no surrounding whitespace, to both routes passes the
    login rules and is matched to a user with that email and stored hash.
    `register` receives the body after `trim`, so it stores the hash of the
    trimmed password.
   */
  lemma RegisterThenLogin(db: Db, payload: RegisterReqBody, userId: ObjectId, emailVerifyToken: string,
                          tokens: TokenPair, lib: Lib, now: int, body: map<string, Json>, p: string)
    requires payload.password == Trim(p) && Trim(p) == p
    requires "email" in body && body["email"].JStr? && Trim(body["email"].s) == payload.email
    requires lib.isEmail(body["email"].s)
    requires "password" in body && body["password"] == JStr(p)
    requires PasswordPolicy(Trim(p), lib.isSymbol)
    ensures var db' := Register(db, payload, userId, emailVerifyToken, tokens, lib, now).0;
            && LoginValidator(db', body, lib).outcome.Proceed?
            && LoginValidator(db', body, lib).user.value.email == payload.email
            && LoginValidator(db', body, lib).user.value.password == lib.hashPassword(payload.password)
  {
    var db' := Register(db, payload, userId, emailVerifyToken, tokens, lib, now).0;
    var i := |db.users|;
    assert db'.users[i].email == payload.email && db'.users[i].password == lib.hashPassword(JsString(Get(body, "password")));
    assert EmailLookupKey(Get(body, "email")) == Some(payload.email);
    assert StandardCheck(Get(body, "email"), lib.isEmail);
    assert PasswordChain(Get(body, "password"), false, lib.isSymbol).None?;
  }

  /**
    As written, a password sent with surrounding whitespace to both routes
    locks its owner out: `register` stores the hash of the trimmed password,
    while the login lookup hashes the password as sent. (Unless no other
    user already matches, and the two hashes differ.)
   */
  lemma PaddedPasswordLoginFails(db: Db, payload: RegisterReqBody, userId: ObjectId, emailVerifyToken: string,
                                 tokens: TokenPair, lib: Lib, now: int, body: map<string, Json>, p: string)
    requires payload.password == Trim(p)
    requires "email" in body && body["email"].JStr? && Trim(body["email"].s) == payload.email
    requires "password" in body && body["password"] == JStr(p)
    requires lib.hashPassword(p) != lib.hashPassword(Trim(p))
    requires LoginLookup(db, payload.email, Some(JStr(p)), lib).None?
    ensures !LoginValidator(Register(db, payload, userId, emailVerifyToken, tokens, lib, now).0, body, lib).outcome.Proceed?
  {
    var db' := Register(db, payload, userId, emailVerifyToken, tokens, lib, now).0;
    var users := db'.users;
    forall j | 0 <= j < |users| ensures !(users[j].email == payload.email && users[j].password == lib.hashPassword(p)) {
      if j < |db.users| {
        assert users[j] == db.users[j];
      }
    }
  }

  /**
    `loginValidator` as intended: the lookup hashes the trimmed password,
    the value `register` hashes.
   */
  function LoginValidatorTrimmed(db: Db, body: map<string, Json>, lib: Lib): (r: LoginCheck)
    ensures r.user.Some? && Get(body, "password").Some? && Get(body, "password").value.JStr? ==>
              r.user.value.password == lib.hashPassword(Trim(Get(body, "password").value.s))
    ensures r.outcome.Proceed? <==>
              && StandardCheck(Get(body, "email"), lib.isEmail)
              && EmailLookupKey(Get(body, "email")).Some?
              && LoginLookup(db, EmailLookupKey(Get(body, "email")).value, SanitizeTrim(Get(body, "password")), lib).Some?
              && PasswordChain(Get(body, "password"), false, lib.isSymbol).None?
    ensures !r.outcome.Forward?
  {
    LoginChecks(db, body, SanitizeTrim(Get(body, "password")), lib)
  }

  /**
    With the trimmed lookup, whatever whitespace surrounds the password sent
    to both routes, the login passes and finds the registered user.
   */
  lemma RegisterThenLoginTrimmed(db: Db, payload: RegisterReqBody, userId: ObjectId, emailVerifyToken: string,
                                 tokens: TokenPair, lib: Lib, now: int, body: map<string, Json>, p: string)
    requires payload.password == Trim(p)
    requires "email" in body && body["email"].JStr? && Trim(body["email"].s) == payload.email
    requires lib.isEmail(body["email"].s)
    requires "password" in body && body["password"] == JStr(p)
    requires PasswordPolicy(Trim(p), lib.isSymbol)
    ensures var db' := Register(db, payload, userId, emailVerifyToken, tokens, lib, now).0;
            && LoginValidatorTrimmed(db', body, lib).outcome.Proceed?
            && LoginValidatorTrimmed(db', body, lib).user.value.email == payload.email
            && LoginValidatorTrimmed(db', body, lib).user.value.password == lib.hashPassword(payload.password)
  {
    var db' := Register(db, payload, userId, emailVerifyToken, tokens, lib, now).0;
    var i := |db.users|;
    var password := SanitizeTrim(Get(body, "password"));
    assert password == Some(JStr(payload.password));
    assert db'.users[i].email == payload.email && db'.users[i].password == lib.hashPassword(JsString(password));
    assert LoginLookup(db', payload.email, password, lib).Some?;
    assert EmailLookupKey(Get(body, "email")) == Some(payload.email);
    assert StandardCheck(Get(body, "email"), lib.isEmail);
    assert PasswordChain(Get(body, "password"), false, lib.isSymbol).None?;
  }

  /**
    A password-reset request changes no user's email or stored password,
    so every login lookup finds a user afterwards exactly when it did
    before.
   */
  lemma ForgotPasswordKeepsLogin(db: Db, userId: ObjectId, forgotPasswordToken: string, now: int,
                                 email: string, passwordSeen: Option<Json>, lib: Lib)
    ensures LoginLookup(ForgotPassword(db, userId, forgotPasswordToken, now).0, email, passwordSeen, lib).Some? <==>
            LoginLookup(db, email, passwordSeen, lib).Some?
  {
    var db' := ForgotPassword(db, userId, forgotPasswordToken, now).0;
    assert forall j :: 0 <= j < |db.users| ==>
             db'.users[j].email == db.users[j].email && db'.users[j].password == db.users[j].password;
  }

  /** `value.split(' ')[1]`, where a missing segment reads as the empty string (both are falsy). */
  function AccessTokenOf(header: string): string {
    var parts := Split(header, ' ');
    if |parts| > 1 then parts[1] else ""
  }

  predicate SpaceFree(s: string) {
    forall j :: 0 <= j < |s| ==> s[j] != ' '
  }

  /**
    `t` sits in `header` right after the first space, which ends a
    space-free scheme, and is followed by the end or by another space.
   */
  predicate TokenAt(header: string, t: string, i: int) {
    && 0 <= i && i + 1 + |t| <= |header| && header[i] == ' ' && SpaceFree(header[..i])
    && header[i + 1..i + 1 + |t|] == t && SpaceFree(t)
    && (i + 1 + |t| == |header| || header[i + 1 + |t|] == ' ')
  }

  /** The first two parts of `s.split(' ')`, when there are at least two. */
  lemma SplitSecond(s: string, i: nat, k: nat)
    requires i == IndexOf(s, ' ') && i < |s| && k == IndexOf(s[i + 1..], ' ')
    ensures |Split(s, ' ')| > 1 && Split(s, ' ')[1] == s[i + 1..][..k]
  {
    var rest := s[i + 1..];
    SplitCons(s, ' ');
    if k < |rest| {
      SplitCons(rest, ' ');
    } else {
      assert Split(rest, ' ') == [rest] && rest[..k] == rest;
    }
  }

  /**
    A non-empty access token is the second space-separated segment: the
    header is a space-free scheme, one space, the token, and then nothing
    or another space.
   */
  lemma AccessTokenShape(header: string, t: string)
    requires t == AccessTokenOf(header) && t != ""
    ensures exists i :: TokenAt(header, t, i)
  {
    var i := IndexOf(header, ' ');
    var rest := header[i + 1..];
    var k := IndexOf(rest, ' ');
    SplitSecond(header, i, k);
    assert t == rest[..k] && |t| == k;
    assert header[i + 1..i + 1 + k] == rest[..k];
    if i + 1 + |t| < |header| {
      assert header[i + 1 + |t|] == rest[k];
    }
    assert SpaceFree(header[..i]);
    assert SpaceFree(t);
    assert TokenAt(header, t, i);
  }

  /**
    `accessTokenValidator`: a missing or empty header fails `notEmpty`, a
    plain error answered with 422; a header without a second segment is
    forwarded as 401 ACCESS_TOKEN_IS_REQUIRED; neither consults the
    verifier. A token the verifier rejects is forwarded as 401 with the
    verifier's message; an accepted one puts its payload on the request.
   */
  function AccessTokenValidator(header: Option<string>, verify: Verifier): (r: (Outcome, Option<TokenPayload>))
    ensures header.None? || header.value == "" ==>
              r == (Unprocessable([FieldError("Authorization", Plain(AccessTokenIsRequired))]), None)
    ensures header.Some? && header.value != "" && AccessTokenOf(header.value) == "" ==>
              r == (Forward(ErrorWithStatus(UNAUTHORIZED, AccessTokenIsRequired)), None)
    ensures r.0.Forward? ==> r.0.error.status == UNAUTHORIZED
    ensures r.0.Proceed? <==> header.Some? && AccessTokenOf(header.value) != "" && verify(AccessTokenOf(header.value)).Ok?
    ensures r.0.Proceed? ==> r.1 == Some(verify(AccessTokenOf(header.value)).value)
  {
    if header.None? || header.value == "" then
      (ValidateOne("Authorization", Some(Plain(AccessTokenIsRequired))), None)
    else
      var token := AccessTokenOf(header.value);
      if token == "" then
        (ValidateOne("Authorization", Some(WithStatus(ErrorWithStatus(UNAUTHORIZED, AccessTokenIsRequired)))), None)
      else match verify(token)
        case Err(e) =>
          (ValidateOne("Authorization", Some(WithStatus(ErrorWithStatus(UNAUTHORIZED, Custom(Capitalize(e.message)))))), None)
        case Ok(p) => (ValidateOne("Authorization", None), Some(p))
  }

  /**
    `refreshTokenValidator` on the body's `refresh_token`: a value that
    fails `notEmpty` (missing, `null`, empty) answers 422. A token the JWT
    library rejects is forwarded as 401 with its message capitalized; a
    value that passes `notEmpty` but is not a string is such a token. Any
    other verifier failure is re-thrown as a plain error. A valid token
    that the token store does not hold is forwarded as 401
    REFRESH_TOKEN_IS_USED_OR_NOT_EXIST. Otherwise the payload is attached.
   */
  function RefreshTokenValidator(db: Db, value: Option<Json>, verify: Verifier): (r: (Outcome, Option<TokenPayload>))
    ensures !StandardCheck(value, NonEmpty) ==>
              r == (Unprocessable([FieldError("refresh_token", Plain(RefreshTokenIsRequired))]), None)
    ensures StandardCheck(value, NonEmpty) && value.value.JStr? && verify(value.value.s).Err? && verify(value.value.s).error.JwtError? ==>
              r == (Forward(ErrorWithStatus(UNAUTHORIZED, Custom(Capitalize(verify(value.value.s).error.message)))), None)
    ensures StandardCheck(value, NonEmpty) && !value.value.JStr? ==>
              r == (Forward(ErrorWithStatus(UNAUTHORIZED, Custom(Capitalize(NonStringTokenError(value.value).message)))), None)
    ensures r.0.Proceed? <==> && value.Some? && value.value.JStr? && value.value.s != ""
                              && verify(value.value.s).Ok? && HasRefreshToken(db, value.value.s)
    ensures value.Some? && value.value.JStr? && value.value.s != "" && verify(value.value.s).Ok? && !HasRefreshToken(db, value.value.s) ==>
              r.0 == Forward(ErrorWithStatus(UNAUTHORIZED, RefreshTokenIsUsedOrNotExist))
    ensures r.0.Forward? ==> r.0.error.status == UNAUTHORIZED
    ensures r.0.Proceed? ==> r.1 == Some(verify(value.value.s).value)
  {
    var first :=
      if !StandardCheck(value, NonEmpty) then Some(Plain(RefreshTokenIsRequired))
      else if !value.value.JStr? then
        Some(WithStatus(ErrorWithStatus(UNAUTHORIZED, Custom(Capitalize(NonStringTokenError(value.value).message)))))
      else match verify(value.value.s)
        case Err(JwtError(m)) => Some(WithStatus(ErrorWithStatus(UNAUTHORIZED, Custom(Capitalize(m)))))
        case Err(OtherError(m)) => Some(Plain(Custom(m)))
        case Ok(_) =>
          if !HasRefreshToken(db, value.value.s) then Some(WithStatus(ErrorWithStatus(UNAUTHORIZED, RefreshTokenIsUsedOrNotExist)))
          else None;
    var outcome := ValidateOne("refresh_token", first);
    (outcome, if outcome.Proceed? then Some(verify(value.value.s).value) else None)
  }

  /** A refresh token stored once is unusable after `logout` with it, whatever the verifier says. */
  lemma RefreshTokenUnusableAfterLogout(db: Db, token: string, verify: Verifier)
    requires Query.Count(db.refreshTokens, ByToken(token)) <= 1
    ensures !RefreshTokenValidator(Logout(db, token), Some(JStr(token)), verify).0.Proceed?
    ensures token != "" && verify(token).Ok? ==>
              RefreshTokenValidator(Logout(db, token), Some(JStr(token)), verify).0
                == Forward(ErrorWithStatus(UNAUTHORIZED, RefreshTokenIsUsedOrNotExist))
  {
    LogoutRevokes(db, token);
  }
}

=== FILE: users_service.dfy ===
/**
  src/services/users.services.ts as transitions of the database. Signed
  JWTs, a freshly generated ObjectId and the current time are inputs: the
  signing keys, expiries and clock are outside the model.
 */
module UsersService {
  import opened Wrappers
  import opened Enums
  import opened Library
  import opened Schemas
  import Query

  /** The sanitized registration body. */
  datatype RegisterReqBody = RegisterReqBody(
    name: string, email: string, password: string, confirmPassword: string, dateOfBirth: string)

  datatype TokenPair = TokenPair(accessToken: string, refreshToken: string)

  /** A MongoDB `UpdateResult`. */
  datatype UpdateResult = UpdateResult(acknowledged: bool, matchedCount: nat, modifiedCount: nat)

  function ById(id: ObjectId): User -> bool {
    (u: User) => u.id == id
  }

  function ByEmail(email: string): User -> bool {
    (u: User) => u.email == email
  }

  function ByToken(token: string): RefreshTokenDoc -> bool {
    (d: RefreshTokenDoc) => d.token == token
  }

  /** The user document `register` inserts (other schema fields take their defaults). */
  function NewUser(payload: RegisterReqBody, id: ObjectId, emailVerifyToken: string, lib: Lib, now: int): User {
    User(id, payload.name, payload.email, lib.hashPassword(payload.password), lib.parseDate(payload.dateOfBirth),
         emailVerifyToken, "", Unverified, [], now, now)
  }

  /**
    `register`: inserts one user with the given fresh id, the HASHED
    password, the parsed date of birth and the email-verification token,
    then one refresh-token record for that user, and returns the signed
    pair. No existing user or other collection changes.
   */
  function Register(db: Db, payload: RegisterReqBody, userId: ObjectId, emailVerifyToken: string,
                    tokens: TokenPair, lib: Lib, now: int): (r: (Db, TokenPair))
    ensures r.1 == tokens
    ensures |r.0.users| == |db.users| + 1 && r.0.users[..|db.users|] == db.users
    ensures var u := r.0.users[|db.users|];
            && u.id == userId && u.name == payload.name && u.email == payload.email
            && u.password == lib.hashPassword(payload.password)
            && u.dateOfBirth == lib.parseDate(payload.dateOfBirth)
            && u.emailVerifyToken == emailVerifyToken && u.verify == Unverified
    ensures r.0.refreshTokens == db.refreshTokens + [RefreshTokenDoc(userId, tokens.refreshToken)]
    ensures r.0.tweets == db.tweets && r.0.hashtags == db.hashtags
    ensures r.0.bookmarks == db.bookmarks && r.0.likes == db.likes
  {
    var users := db.users + [NewUser(payload, userId, emailVerifyToken, lib, now)];
    (db.(users := users, refreshTokens := db.refreshTokens + [RefreshTokenDoc(userId, tokens.refreshToken)]), tokens)
  }

  /** A fresh id keeps user ids unique across `register`. */
  lemma RegisterKeepsIdsUnique(db: Db, payload: RegisterReqBody, userId: ObjectId, emailVerifyToken: string,
                               tokens: TokenPair, lib: Lib, now: int)
    requires UniqueUserIds(db.users)
    requires forall i :: 0 <= i < |db.users| ==> db.users[i].id != userId
    ensures UniqueUserIds(Register(db, payload, userId, emailVerifyToken, tokens, lib, now).0.users)
  {
    var users := Register(db, payload, userId, emailVerifyToken, tokens, lib, now).0.users;
    forall i, j | 0 <= i < j < |users|
      ensures users[i].id != users[j].id
    {
      assert users[i] == db.users[i];
      if j < |db.users| {
        assert users[j] == db.users[j];
      }
    }
  }

  /** `checkEmailExist`: true exactly when some user has that exact email. */
  function CheckEmailExist(db: Db, email: string): (b: bool)
    ensures b <==> exists i :: 0 <= i < |db.users| && db.users[i].email == email
  {
    Query.FindOne(db.users, ByEmail(email)).Some?
  }

  /** `login`: one refresh-token record for the user is added, holding the token returned. */
  function Login(db: Db, userId: ObjectId, tokens: TokenPair): (r: (Db, TokenPair))
    ensures r.1 == tokens
    ensures r.0 == db.(refreshTokens := db.refreshTokens + [RefreshTokenDoc(userId, tokens.refreshToken)])
  {
    (db.(refreshTokens := db.refreshTokens + [RefreshTokenDoc(userId, tokens.refreshToken)]), tokens)
  }

  /**
    `logout`: `deleteOne({ token })` removes at most one refresh-token
    record, and only one holding that token; nothing else changes.
   */
  function Logout(db: Db, token: string): (r: Db)
    ensures r == db.(refreshTokens := r.refreshTokens)
    ensures |db.refreshTokens| - 1 <= |r.refreshTokens| <= |db.refreshTokens|
    ensures |r.refreshTokens| == |db.refreshTokens| <==> forall i :: 0 <= i < |db.refreshTokens| ==> db.refreshTokens[i].token != token
    ensures |r.refreshTokens| < |db.refreshTokens| ==>
              exists i :: 0 <= i < |db.refreshTokens| && db.refreshTokens[i].token == token
                          && multiset(r.refreshTokens) + multiset{db.refreshTokens[i]} == multiset(db.refreshTokens)
  {
    db.(refreshTokens := Query.DeleteOne(db.refreshTokens, ByToken(token)))
  }

  /** Whether the token store holds `token`. */
  predicate HasRefreshToken(db: Db, token: string) {
    exists i :: 0 <= i < |db.refreshTokens| && db.refreshTokens[i].token == token
  }

  /** After `logout(t)` the token is still stored exactly when it had been stored more than once. */
  lemma LogoutRevokes(db: Db, token: string)
    ensures HasRefreshToken(Logout(db, token), token) <==> Query.Count(db.refreshTokens, ByToken(token)) >= 2
  {
    var r := Logout(db, token);
    if Query.FindFirst(db.refreshTokens, ByToken(token)).Some? {
      Query.DeleteOneCount(db.refreshTokens, ByToken(token));
    }
    var p := ByToken(token);
    assert HasRefreshToken(r, token) <==> exists i :: 0 <= i < |r.refreshTokens| && p(r.refreshTokens[i]);
  }

  /** A login followed by a logout of the token it issued leaves the token store as it was. */
  lemma LoginThenLogout(db: Db, userId: ObjectId, tokens: TokenPair)
    requires !HasRefreshToken(db, tokens.refreshToken)
    ensures Logout(Login(db, userId, tokens).0, tokens.refreshToken) == db
  {
    var s := db.refreshTokens + [RefreshTokenDoc(userId, tokens.refreshToken)];
    var i := Query.FindFirst(s, ByToken(tokens.refreshToken));
    assert i == Some(|db.refreshTokens|);
    assert s[..|db.refreshTokens|] == db.refreshTokens;
  }

  /** Result of `updateOne` by id when `f` rewrites the matched document. */
  function UpdateUserById(users: seq<User>, id: ObjectId, f: User -> User): (r: (seq<User>, UpdateResult))
    ensures r.0 == Query.UpdateOne(users, ById(id), f)
    ensures r.1.acknowledged
    ensures r.1.matchedCount == (if Query.FindFirst(users, ById(id)).Some? then 1 else 0)
    ensures r.1.modifiedCount <= r.1.matchedCount
  {
    var users' := Query.UpdateOne(users, ById(id), f);
    match Query.FindFirst(users, ById(id))
    case None => (users', UpdateResult(true, 0, 0))
    case Some(i) => (users', UpdateResult(true, 1, if f(users[i]) != users[i] then 1 else 0))
  }

  function MarkVerified(now: int): User -> User {
    (u: User) => u.(emailVerifyToken := "", verify := Verified, updatedAt := now)
  }

  /**
    `verifyEmail`: the user with that id gets an empty email-verification
    token, status Verified and a new `updated_at`; its other fields and
    every other document stay as they were.
   */
  function VerifyEmail(db: Db, userId: ObjectId, tokens: TokenPair, now: int): (r: (Db, TokenPair))
    ensures r.1 == tokens
    ensures r.0 == db.(users := r.0.users) && |r.0.users| == |db.users|
    ensures forall j :: 0 <= j < |db.users| && db.users[j].id != userId ==> r.0.users[j] == db.users[j]
    ensures Query.FindFirst(db.users, ById(userId)).Some? ==>
              var i := Query.FindFirst(db.users, ById(userId)).value;
              r.0.users[i] == db.users[i].(emailVerifyToken := "", verify := Verified, updatedAt := now)
  {
    (db.(users := UpdateUserById(db.users, userId, MarkVerified(now)).0), tokens)
  }

  /**
    `resendVerifyEmail`: only the email-verification token and `updated_at`
    of the user with that id are replaced.
   */
  function ResendVerifyEmail(db: Db, userId: ObjectId, emailVerifyToken: string, now: int): (r: (Db, UpdateResult))
    ensures r.0 == db.(users := r.0.users) && |r.0.users| == |db.users|
    ensures forall j :: 0 <= j < |db.users| && db.users[j].id != userId ==> r.0.users[j] == db.users[j]
    ensures Query.FindFirst(db.users, ById(userId)).Some? ==>
              var i := Query.FindFirst(db.users, ById(userId)).value;
              r.0.users[i] == db.users[i].(emailVerifyToken := emailVerifyToken, updatedAt := now)
    ensures r.1.matchedCount == 1 <==> exists j :: 0 <= j < |db.users| && db.users[j].id == userId
  {
    var (users, result) := UpdateUserById(db.users, userId, (u: User) => u.(emailVerifyToken := emailVerifyToken, updatedAt := now));
    (db.(users := users), result)
  }

  /**
    `forgotPassword`: only the forgot-password token and `updated_at` of
    the user with that id are replaced.
   */
  function ForgotPassword(db: Db, userId: ObjectId, forgotPasswordToken: string, now: int): (r: (Db, UpdateResult))
    ensures r.0 == db.(users := r.0.users) && |r.0.users| == |db.users|
    ensures forall j :: 0 <= j < |db.users| && db.users[j].id != userId ==> r.0.users[j] == db.users[j]
    ensures Query.FindFirst(db.users, ById(userId)).Some? ==>
              var i := Query.FindFirst(db.users, ById(userId)).value;
              r.0.users[i] == db.users[i].(forgotPasswordToken := forgotPasswordToken, updatedAt := now)
    ensures r.1.matchedCount == 1 <==> exists j :: 0 <= j < |db.users| && db.users[j].id == userId
  {
    var (users, result) := UpdateUserById(db.users, userId, (u: User) => u.(forgotPasswordToken := forgotPasswordToken, updatedAt := now));
    (db.(users := users), result)
  }
}

=== FILE: validation.dfy ===
/**
  The `validate` wrapper every validator schema runs through: after the
  schema's checks have run, it looks at the first error of each field and
  either forwards an `ErrorWithStatus` to the error handler, answers 422
  with all field errors, or lets the request through.
 */
module Validation {
  import opened Wrappers
  import opened Errors
  import Query

  /** One entry of `validationResult(req).mapped()`: a field and the first error recorded for it. */
  datatype FieldError = FieldError(field: string, msg: ErrorMsg)

  /** The three ways a validated request leaves `validate`. */
  datatype Outcome =
    | Forward(error: ErrorWithStatus)          // next(msg)
    | Unprocessable(errors: seq<FieldError>)   // res.status(422).json({ errors })
    | Proceed                                  // next()

  /** An error `validate` hands to `next`: an `ErrorWithStatus` whose status is not 422. */
  predicate Forwards(e: FieldError) {
    e.msg.WithStatus? && e.msg.error.status != UNPROCESSABLE_ENTITY
  }

  /**
    The dispatch of `validate`, over the field errors in key order. Exactly
    one of the three outcomes happens; an `ErrorWithStatus` carrying 422 is
    an ordinary validation error.
   */
  function Validate(mapped: seq<FieldError>): (r: Outcome)
    ensures r.Forward? <==> exists i :: 0 <= i < |mapped| && Forwards(mapped[i])
    ensures r.Forward? ==>
              exists i :: (0 <= i < |mapped| && Forwards(mapped[i]) && r.error == mapped[i].msg.error
                           && forall j :: 0 <= j < i ==> !Forwards(mapped[j]))
    ensures r.Unprocessable? <==> (|mapped| > 0 && forall i :: 0 <= i < |mapped| ==> !Forwards(mapped[i]))
    ensures r.Unprocessable? ==> r.errors == mapped
    ensures r.Proceed? <==> |mapped| == 0
  {
    match Query.FindFirst(mapped, Forwards)
    case Some(i) => Forward(mapped[i].msg.error)
    case None => if |mapped| > 0 then Unprocessable(mapped) else Proceed
  }

  /**
    The field errors of a schema run: the fields whose checks failed, each
    with its first error, in schema order.
   */
  function Collect(fields: seq<(string, Option<ErrorMsg>)>): (r: seq<FieldError>)
    ensures |r| <= |fields|
    ensures |r| == 0 <==> forall i :: 0 <= i < |fields| ==> fields[i].1.None?
    ensures forall k :: 0 <= k < |r| ==> (r[k].field, Some(r[k].msg)) in fields
  {
    if |fields| == 0 then []
    else
      var rest := Collect(fields[1..]);
      assert forall k :: 0 <= k < |rest| ==> (rest[k].field, Some(rest[k].msg)) in fields;
      match fields[0].1
      case None => rest
      case Some(m) => [FieldError(fields[0].0, m)] + rest
  }

  /** Every field's error reaches the collected list: nothing is dropped. */
  lemma {:induction false} CollectKeeps(fields: seq<(string, Option<ErrorMsg>)>, i: nat)
    requires i < |fields| && fields[i].1.Some?
    ensures FieldError(fields[i].0, fields[i].1.value) in Collect(fields)
  {
    if i > 0 {
      CollectKeeps(fields[1..], i - 1);
    }
  }

  /** `validate` over a schema with a single field. */
  function ValidateOne(field: string, m: Option<ErrorMsg>): (r: Outcome)
    ensures m.None? ==> r == Proceed
    ensures m.Some? && Forwards(FieldError(field, m.value)) ==> r == Forward(m.value.error)
    ensures m.Some? && !Forwards(FieldError(field, m.value)) ==> r == Unprocessable([FieldError(field, m.value)])
  {
    var fields := [(field, m)];
    assert fields[1..] == [];
    Validate(Collect(fields))
  }

  /** `validate` over a two-field schema whose failures are plain messages: 422 or through. */
  function ValidatePair(f1: string, e1: Option<ErrorMsg>, f2: string, e2: Option<ErrorMsg>): (r: Outcome)
    requires e1.None? || e1.value.Plain?
    requires e2.None? || e2.value.Plain?
    ensures !r.Forward?
    ensures r.Proceed? <==> e1.None? && e2.None?
    ensures r.Unprocessable? ==> r.errors == Collect([(f1, e1), (f2, e2)])
  {
    var fields := [(f1, e1), (f2, e2)];
    assert fields[0].1 == e1 && fields[1].1 == e2;
    PlainErrorsNeverForward(fields);
    Validate(Collect(fields))
  }

  /** A schema whose failures are all plain messages never forwards: it answers 422 or proceeds. */
  lemma {:induction false} PlainErrorsNeverForward(fields: seq<(string, Option<ErrorMsg>)>)
    requires forall i :: 0 <= i < |fields| ==> fields[i].1.None? || fields[i].1.value.Plain?
    ensures !Validate(Collect(fields)).Forward?
    ensures Validate(Collect(fields)).Proceed? <==> forall i :: 0 <= i < |fields| ==> fields[i].1.None?
  {
    var m := Collect(fields);
    forall k | 0 <= k < |m|
      ensures !Forwards(m[k])
    {
      var i :| 0 <= i < |fields| && fields[i] == (m[k].field, Some(m[k].msg));
    }
  }
}

=== FILE: wrappers.dfy ===
/** Failure-compatible wrappers shared by every module of the model. */
module Wrappers {

  /** A value that may be missing: a JavaScript `undefined`, a `findOne` miss. */
  datatype Option<+T> = None | Some(value: T)

  /** Either a computed value or the error a handler throws. */
  datatype Result<+R, +E> = Ok(value: R) | Err(error: E)
}
